=== FILE: README.md ===
# Muhabbet AI chat core in Dafny

This project models the chat core of the light-ai repository, a Turkish-language assistant.
The core has three parts:

- **The model gateway** (`server/openai.ts`).
  - The context window keeps a long history to its first turn, one summary turn and the last 15 turns.
  - Request shaping covers the text and vision models, including merging an image into the last user turn.
  - Every completion outcome, including every failure, is mapped to a displayable reply text.
- **The route handler** (`server/routes.ts`).
  - `POST /api/chat` filters the client's history and appends the new user turn.
  - It dispatches to the text or the vision entry point.
  - It wraps the reply as an assistant message, or answers 500.
  - Three fixed endpoints complete the route.
- **The client-side rules.**
  - The conversation store kept in local storage (`use-chat.ts`): load with a welcome message, send, delete, regenerate, clear, and TXT export.
  - The chat input (`ChatInput.tsx`): image type and size checks, extraction of the base64 payload, the submit guard and payload, and the Enter rule.
  - Keyboard shortcuts: first match wins.
  - The settings overlay and update.
  - The toast list.

Everything is immutable data and pure functions over sequences. The non-deterministic surroundings become parameters:

- The completion API is a function `complete: ChatRequest -> Completion`. A `Completion` either has a list of choices, each with optional content, or is a failure with an optional HTTP status and an optional error code. A lemma about an entry point therefore holds whatever the API answers.
- `Math.random()`, `Date.now()`, how the server answers a send or a regenerate, and the file reader's result are parameters too. The server's answer is an `Answer`: a parsed reply, a response that is not ok, or an error thrown by `fetch` or `res.json()`.
- Local storage is a `Stored` value. Sending and regenerating each return a `Mutation`: the request they send, the lists they write in order, and what they resolve or reject with. Deleting returns the filtered list it writes, and clearing returns the slot it leaves.

JavaScript semantics that matter are written out:

- truthiness of optional strings (`imageUrl || imageBase64`, `m.content`, `imageBase64 || undefined`);
- `slice` with negative indices;
- `split(",")[1]`;
- `trim` with the ECMAScript whitespace set;
- the template-literal rendering of a missing value as `undefined`;
- the `TypeError` raised by `choices[0]` on an empty choice list, which the gateway's `catch` turns into its generic text.

Modules:

- `Common`: `Option`, `Result` and truthiness.
- `Seqs`: `filter`, subsequence and `lastIndexOf`.
- `Text`: `join`, `split`, `includes`, `trim` and decimal rendering.
- `ChatTypes`: the records.
- One module per source file: `OpenAI`, `Routes`, `UseChat`, `ChatInput`, `KeyboardShortcuts`, `Settings`, `Toasts`.
- `Pipeline`: lemmas that run one chat round through client, route and gateway together.

Facts about the code that a quick reading can get wrong:

- **Window length.** A history longer than 20 turns becomes 17 turns: the first turn, one summary turn and the last 15 (`server/openai.ts:81-92`). `OpenAI.SummarizeContext` and `Pipeline.TwentyFiveTurns` state 17. Windowing is idempotent because 17 ≤ 20.
- **Duplicate user turn.** The client puts the new user message into the history it sends (`client/src/hooks/use-chat.ts:87-90`), and the route appends the same text once more (`server/routes.ts:36`, `:42`). The first message after the welcome therefore reaches the model as system, welcome, user, user, as `Pipeline.FirstMessageAfterWelcome` states.
- **Data URI type.** The data URI built from a base64 payload always says `image/jpeg`, whatever type the uploaded file had (`server/openai.ts:174`). `OpenAI.ImageRef` does the same.
- **Error messages.** The route answers 500 with one of two texts: a format message when the error text contains `validation`, and a generic one otherwise (`server/routes.ts:59-61`, `Routes.ErrorText`).

## Model

| member | source | states |
|---|---|---|
| OpenAI.SliceIndex | server/openai.ts:82-83 | a `slice` argument in range is kept, a negative one within the length counts from the end, one past the end gives the length and one before the start gives 0 |
| OpenAI.JsSlice | server/openai.ts:82-83 | the result is the run of the sequence between the two resolved indices, and empty when the start lies after the end |
| OpenAI.SummarizeContext | server/openai.ts:74-95 | at most 20 turns are returned unchanged; a longer history becomes exactly 17 turns: its first turn, a system turn for the n − 16 turns left out, and its last 15 turns; the empty-middle fallback is unreachable; the result never exceeds 20 turns |
| OpenAI.SummarizeIdempotent | server/openai.ts:76-92 | windowing a window changes nothing |
| OpenAI.SummaryStatesMiddleCount | server/openai.ts:83-89 | the summary turn of a long history is a system turn from whose text the number of replaced turns can be read back exactly |
| OpenAI.SummaryText | server/openai.ts:86 | the summary sentence for a count n reads back, through the independent parser `SummaryCount` (which refuses a leading zero), as exactly n, so distinct counts give distinct texts and the count is written without padding |
| OpenAI.WindowKeepsOrder | server/openai.ts:81-92 | every turn of the window except the summary is a turn of the history, in the history's order |
| OpenAI.ClassifyFailure | server/openai.ts:122-131 | status 429 gives rate-limited, status 401 unauthorized, and ENOTFOUND or ECONNREFUSED (only when neither status applies) network-unreachable, each if and only if |
| OpenAI.FailureTextsDistinct | server/openai.ts:123-131 | the four failure texts of the text path are pairwise distinct, so the reply identifies the failure class |
| OpenAI.FailureText | server/openai.ts:123-131 | the four fixed reply texts of the failure classes, which `FailureTextsDistinct` reads back through `FailureOfText` |
| OpenAI.TextReply | server/openai.ts:118-131 | the first choice's content when truthy, the fixed empty-reply text when it is absent or empty, the generic text for an empty choice list, and the classified failure text for an API error |
| OpenAI.CaughtError | server/openai.ts:118-119 | no error is caught exactly when the call completes with at least one choice; an API failure is caught with its status and code, and an empty choice list raises an error that has neither |
| OpenAI.VisionReply | server/openai.ts:195-203 | the first choice's content when truthy, the vision empty-reply text otherwise; among failures only status 429 gives the busy text, every other failure and an empty choice list give the image-problem text |
| OpenAI.FormatTurns | server/openai.ts:148-157 | copying role and string content, and passing part lists through, leaves every turn as it was |
| OpenAI.ImageRef | server/openai.ts:174 | the image URL when it is truthy, else the `image/jpeg` data URI of the base64 payload |
| OpenAI.HasImage | server/routes.ts:34 | `imageUrl || imageBase64`: false exactly when each image field is missing or empty |
| OpenAI.ImageRefWhenPresent | server/openai.ts:160-174 | whenever an image is present the reference is the URL or the data URI of an actual payload; the `undefined` rendering cannot occur |
| OpenAI.MergeImage | server/openai.ts:159-180 | without a user turn the list is unchanged; otherwise exactly the last user turn is replaced by a text part and an image part, and every other turn is kept |
| OpenAI.LeadingText | server/openai.ts:169 | the string content itself; for a part list, the first part's text when that part is text, else the empty string |
| OpenAI.WithImage | server/openai.ts:164-178 | a user turn of exactly two parts, a text part carrying the old turn's leading text and then the image reference |
| OpenAI.GetChatResponse | server/openai.ts:98-133 | one request with model gpt-4o, temperature 0.8 and 2000 tokens, whose messages are one system turn followed by the window; at most 21 messages; a history of at most 20 turns is sent verbatim after the system turn; the reply is the mapped outcome of that request |
| OpenAI.GetChatResponseWithVision | server/openai.ts:136-205 | with an image and no vision credential, the fixed acknowledgment and no API call; otherwise one request with the prompt plus the vision clause, then the window, with the image merged into its last user turn when present; at most 21 messages |
| OpenAI.IsVisionAvailable | server/openai.ts:207-210 | vision is available exactly when the credential is configured |
| ChatTypes.ToTurns | client/src/hooks/use-chat.ts:87-90 | the history reduced to role and string content, one turn per message, in order |
| ChatTypes.ToTurnsAppend | client/src/hooks/use-chat.ts:75-90 | reducing to turns commutes with appending messages |
| Seqs.Filter | server/routes.ts:28 | the kept elements are exactly those passing the test, in their original order, and each value that passes occurs in the result exactly as often as in the input while a failing value occurs nowhere |
| Seqs.FilterAppend | client/src/hooks/use-chat.ts:116 | filtering a concatenation is the concatenation of the filtered parts |
| Seqs.FilterKeepsAll | client/src/hooks/use-chat.ts:116 | a filter every element passes returns its input |
| Seqs.FilterIdempotent | client/src/hooks/use-chat.ts:116 | filtering twice with one test is filtering once |
| Seqs.LastIndexOf | server/openai.ts:161 | the greatest index holding the value, or -1 when none does |
| Text.JoinSplit | client/src/components/ChatInput.tsx:52 | splitting on a separator and joining with it gives back the string |
| Text.Join | client/src/hooks/use-chat.ts:218 | no pieces join to the empty string and one piece to itself; `JoinSnoc` and `JoinSplit` fix the rest |
| Text.Split | client/src/components/ChatInput.tsx:52 | at least one piece, none holding the separator, and more than one exactly when the string holds the separator |
| Text.SplitOnce | client/src/components/ChatInput.tsx:52 | a string with exactly one separator splits into the two sides |
| Text.JoinSnoc | client/src/hooks/use-chat.ts:214-218 | joining one more piece appends the separator and the piece |
| Text.ContainsInfix | server/routes.ts:59 | a string includes every string glued into it |
| Text.Contains | server/routes.ts:59 | `includes`: the string has the other as a contiguous run at some position |
| Text.Trim | client/src/components/ChatInput.tsx:102-105 | the result is an infix of the input with only whitespace cut off either side, and it neither starts nor ends with whitespace |
| Text.TrimEmptyIff | client/src/components/ChatInput.tsx:102 | trimming gives the empty string exactly for all-whitespace input |
| Text.TrimIdempotent | client/src/components/ChatInput.tsx:105 | trimming a trimmed string changes nothing |
| Text.NatToString | server/openai.ts:86 | the rendering of a count is a non-empty digit string without a leading zero |
| Text.DigitsValueOfNatToString | server/openai.ts:86 | reading a rendered count back gives the count |
| Routes.ChatContext | server/routes.ts:27-29 | a missing history gives no turns; otherwise exactly the turns with truthy content, in order, each as often as it occurs in the history |
| Routes.HasContent | server/routes.ts:28 | a part list always counts as content; a string counts exactly when it is non-empty |
| Routes.ChatContextAppend | server/routes.ts:27-29 | appending a turn that has content to the history appends it to the filtered turns |
| Routes.ChatContextKeepsFullHistory | server/routes.ts:27-29 | a history in which every turn has content passes whole |
| Routes.RandomId | server/routes.ts:49 | a reply id lies in 0 .. 999999 |
| Routes.ErrorText | server/routes.ts:59-61 | the format text if and only if the error message includes `validation`, the generic text otherwise |
| Routes.ChatCall | server/routes.ts:34-45 | the vision entry point is called if and only if an image is present; its messages are the filtered history followed by exactly one user turn with the body's text; the image fields are passed on unchanged |
| Routes.HandleChat | server/routes.ts:14-64 | a body that fails validation makes no call and answers 500 with the error text; a valid one makes that call and answers an assistant message carrying the gateway's text, with an id in range, the current time and no image |
| Routes.ValidationMessageDetected | server/routes.ts:59-63 | an error message containing `validation` anywhere gives 500 with the format text |
| Routes.VisionAvailable | server/routes.ts:68-70 | the endpoint echoes the credential flag |
| Routes.History | server/routes.ts:73-75 | the server history endpoint always answers an empty list |
| Routes.Clear | server/routes.ts:77-79 | the clear endpoint always answers 204 |
| UseChat.LoadHistory | client/src/hooks/use-chat.ts:16-51 | an empty slot yields, and stores, the single assistant welcome message; an unparseable slot yields no messages; a stored list is shown as stored |
| UseChat.WelcomeMessage | client/src/hooks/use-chat.ts:23-33 | the welcome is an assistant message without image whose timestamp is the `new Date()` reading, whose id is the separate `Date.now()` reading, and whose text names the weekday, the date and the time of that first reading |
| UseChat.LoadTwice | client/src/hooks/use-chat.ts:20-47 | loading again from what a load left behind shows the same list |
| UseChat.ClearChat | client/src/hooks/use-chat.ts:180-186 | clearing empties the slot |
| UseChat.ClearThenLoad | client/src/hooks/use-chat.ts:180-193 | after clearing, the refetched history is the welcome message alone |
| UseChat.SendMessage | client/src/hooks/use-chat.ts:54-107 | the user message is appended and stored before the request; the request carries the updated list reduced to turns; a reply is stored after it; a response that is not ok rejects with the send-failed text, and a thrown error rejects with that error, both keeping the user message stored without a reply |
| UseChat.SendKeepsPrior | client/src/hooks/use-chat.ts:75-99 | after a send the stored list starts with the earlier messages unchanged, followed by the user message and, on success only, one more message |
| UseChat.DeleteMessage | client/src/hooks/use-chat.ts:110-124 | every message with the id is removed and all others are kept in order, each as often as it was stored |
| UseChat.DeleteAbsentId | client/src/hooks/use-chat.ts:116 | deleting an id no message carries changes nothing |
| UseChat.DeleteIdempotent | client/src/hooks/use-chat.ts:116 | deleting the same id twice is deleting it once |
| UseChat.DeleteAppend | client/src/hooks/use-chat.ts:116 | deleting from a concatenation deletes from each part |
| UseChat.LastUserIndex | client/src/hooks/use-chat.ts:134-141 | the index of the last user message, or -1 when there is none |
| UseChat.FindLastUserIndex | client/src/hooks/use-chat.ts:134-141 | the backwards loop stops at the last user message, which is the index `LastUserIndex` defines |
| UseChat.Regenerate | client/src/hooks/use-chat.ts:127-177 | without a user message it rejects and writes nothing; otherwise it resends that message's content and image with the history up to it; a reply stores that prefix plus the new reply, dropping what came after; a response that is not ok rejects with the regenerate-failed text and a thrown error with that error, neither writing anything |
| UseChat.RegenerateAfterSend | client/src/hooks/use-chat.ts:145-168 | regenerating right after a successful send resends the identical request and replaces only the reply |
| UseChat.ExportLines | client/src/hooks/use-chat.ts:214-217 | one `[time] ROLE: content` line per message, in order |
| UseChat.RoleLabel | client/src/hooks/use-chat.ts:216 | `SEN` exactly for user messages, `AI` for every other role |
| UseChat.ExportLine | client/src/hooks/use-chat.ts:215-217 | a line is exactly three pieces: the bracketed time and a space, then the role label, a colon and a space, then the message content |
| UseChat.ExportText | client/src/hooks/use-chat.ts:196-218 | nothing is exported for an empty or unparseable slot; an empty list exports the empty text; a single message exports its own line |
| UseChat.ExportAppend | client/src/hooks/use-chat.ts:214-218 | one more message extends the export by a blank line and that message's line |
| ChatInput.CheckImage | client/src/components/ChatInput.tsx:32-45 | a file is accepted if and only if its type is jpeg, png, gif or webp and it is at most 10 MiB; a bad type reports the type error whatever the size |
| ChatInput.Base64Payload | client/src/components/ChatInput.tsx:52 | a payload exactly when the data URL holds a comma; a payload never contains a comma |
| ChatInput.Base64PayloadOfDataUrl | client/src/components/ChatInput.tsx:52 | for `header,payload` the payload is exactly what is kept |
| ChatInput.ProcessImage | client/src/components/ChatInput.tsx:32-64 | a rejected file only sets its error; a read error sets the read error; a read file becomes the preview and its payload the stored image, clearing the error |
| ChatInput.RemoveImage | client/src/components/ChatInput.tsx:92-98 | preview and image are cleared, text and error kept |
| ChatInput.Sendable | client/src/components/ChatInput.tsx:102 | a submission goes ahead if and only if nothing is loading and the input has a non-whitespace character or an image is attached |
| ChatInput.Submit | client/src/components/ChatInput.tsx:100-117 | nothing is sent unless the input is sendable; otherwise the trimmed text (or the placeholder) and the image are sent, and the input, image and error are cleared |
| ChatInput.SubmittedContentNotBlank | client/src/components/ChatInput.tsx:102-105 | whatever a submission sends still has visible characters after trimming: the trimmed text is already trimmed, and the image placeholder is not blank |
| ChatInput.KeyDown | client/src/components/ChatInput.tsx:119-124 | Enter without Shift submits if and only if Enter-to-send is on; other keys change nothing |
| ChatInput.EnterOnBlankInput | client/src/components/ChatInput.tsx:119-123 | Enter on a blank input without an image sends nothing and keeps the state |
| ChatInput.AcceptedImageIsSent | client/src/components/ChatInput.tsx:48-107 | an accepted image read as `header,payload` is what the next submit sends, with the placeholder text |
| KeyboardShortcuts.FirstMatch | client/src/hooks/use-keyboard-shortcuts.ts:16-26 | the position of the first matching shortcut; none only when no shortcut matches |
| KeyboardShortcuts.Matches | client/src/hooks/use-keyboard-shortcuts.ts:17-21 | a shortcut matches an event exactly when the key is equal and Ctrl-or-Cmd, Shift and Alt are each pressed if and only if the shortcut asks for them |
| KeyboardShortcuts.HandleKeyDown | client/src/hooks/use-keyboard-shortcuts.ts:13-27 | disabled does nothing; the default is prevented if and only if an action runs; the action that runs is the first match in list order |
| KeyboardShortcuts.FirstMatchUnique | client/src/hooks/use-keyboard-shortcuts.ts:16-26 | any answer with the first-match properties is the first match |
| KeyboardShortcuts.AbsentFlagIsFalse | client/src/hooks/use-keyboard-shortcuts.ts:17-19 | an absent modifier flag and a false one match the same events |
| KeyboardShortcuts.HomeShortcutsDispatch | client/src/pages/Home.tsx:34-48 | with the list the home page registers, an event runs the clear action exactly when it is K with Ctrl or Cmd and without Shift or Alt, the close action exactly when it is a bare Escape, and nothing otherwise |
| Settings.Overlay | client/src/hooks/use-settings.ts:26 | each field present in the patch replaces the base value, each absent field keeps it |
| Settings.ToPatch | client/src/hooks/use-settings.ts:37 | the persisted object holds every field, and overlaying it on any settings gives back exactly the settings it was made from |
| Settings.LoadSettings | client/src/hooks/use-settings.ts:22-32 | nothing stored or unparseable gives the defaults; each stored field replaces its default and each field missing from storage keeps it |
| Settings.UpdateSettings | client/src/hooks/use-settings.ts:34-37 | the new state is the update over the current state and the persisted value is that full state |
| Settings.PersistedReloads | client/src/hooks/use-settings.ts:22-37 | what an update persists loads back to exactly the new state |
| Settings.EmptyUpdateIsIdentity | client/src/hooks/use-settings.ts:35 | an update with no fields changes nothing |
| Settings.UpdatesCompose | client/src/hooks/use-settings.ts:35 | two updates in a row are one update with the later fields winning |
| Settings.DefaultsWhenNothingUsable | client/src/hooks/use-settings.ts:13-31 | the defaults are oled, default, sound off, timestamps on, Enter sends; an unparseable value or an empty object gives the same |
| Toasts.ShowToast | client/src/hooks/use-toast-notifications.ts:13-24 | one toast is appended after the unchanged earlier ones, with type info and duration 3000 by default; a removal is scheduled if and only if the duration is positive |
| Toasts.RemoveToast | client/src/hooks/use-toast-notifications.ts:26-28 | every toast with the id is removed and the others are kept in order, each as often as it was listed |
| Toasts.TimerRemovesItsToast | client/src/hooks/use-toast-notifications.ts:14-23 | when a toast's timer fires the toast list is back to what it was before |
| Toasts.SameMillisecondRemovedTogether | client/src/hooks/use-toast-notifications.ts:14-28 | two toasts shown in the same millisecond share an id and are removed together |
| Pipeline.UserTurnReachesGatewayTwice | server/routes.ts:34-44 | after a client send the gateway receives the filtered earlier history followed by the user's turn twice |
| Pipeline.WelcomeNotEmpty | client/src/hooks/use-chat.ts:27-31 | the welcome text is never empty, so the route's filter keeps it |
| Pipeline.FirstMessageAfterGreeting | server/routes.ts:41-44 | the first text message after a greeting reaches the text model as system, greeting, user, user |
| Pipeline.GreetingCall | server/routes.ts:34-44 | sending after a lone greeting calls the text entry point with the greeting turn and the user turn twice |
| Pipeline.ThreeTurnTextRequest | server/openai.ts:98-110 | three short turns are sent to the text model after the system turn, unchanged |
| Pipeline.FirstMessageAfterWelcome | server/routes.ts:41-44 | "Merhaba" after the welcome reaches the text model as four turns: system, welcome, user, user |
| Pipeline.TwentyFiveTurns | server/openai.ts:81-92 | 25 turns are windowed to 17 whose summary counts 9 and whose last 15 are turns 10 to 24 |
| Pipeline.ImageOnlyRequest | server/openai.ts:159-180 | an image with no text and no history reaches the vision model as one user turn of an empty text part and the JPEG data URI |
| Pipeline.ImageCallOfSend | server/routes.ts:34-39 | a send with a base64 image becomes a vision call with the payload unchanged |
| Pipeline.VisionRequestOnShortWindow | server/openai.ts:148-190 | a short window is sent whole with the image merged into its final user turn |
| Pipeline.MergeImageOnLastTurn | server/openai.ts:161-178 | when the last turn is the user's, the image merges into it |
| Pipeline.ImageLandsOnAppendedTurn | server/openai.ts:159-180 | the image lands on the turn the route appended, while the copy of the text that came with the history stays plain |
| Pipeline.ImageWithoutVisionCredential | server/openai.ts:143-145 | without the credential an image gets the acknowledgment, no API call, and still an ordinary assistant reply |
| Pipeline.UnauthorizedBecomesReply | server/openai.ts:125-126 | an API that rejects the credential yields the fixed API-issue text in a normal assistant reply, not an error response |

## Left out

- The OpenAI SDK call, its client construction and the environment lookups are not modelled. The API is the `complete` parameter, and the presence of the credential is the `hasVisionSupport` flag.
- The system prompt's wording and its Istanbul date and time are a parameter (`systemPrompt`). Only its position as the single first turn and the vision clause are modelled.
- Local storage, `JSON.parse` and `JSON.stringify`, `fetch`, the file reader and the Blob download are not modelled. Storage is a `Stored` value, a parse failure is `Unparseable`, the server's answer is an `Answer`, and the file read is an optional data URL.
- `Date.now()`, `new Date()` and `Math.random()` are parameters. The Turkish-locale renderings of dates are strings or a `timeText` function.
- Timers are not modelled: a toast's timer is returned as a value, and its firing is the same removal as `removeToast`. The typewriter reveal in `ChatMessage.tsx` is left out.
- Schema validation is reduced to its outcome. A body is either already typed or a thrown error with an optional message.
- History content values other than strings and part lists, such as numbers or `null`, are not modelled.
- Role strings other than `system`, `user` and `assistant` are not modelled, although the schema accepts any string.
- The react-query cache is a parameter (`cache`), and invalidation and refetching are not modelled. `UseChat.ClearThenLoad` states the refetch result directly.
- The JSON export format and the export's file name are not modelled.
- `useVisionAvailable` (the client's fetch of the vision flag) is not modelled. Its server side is `Routes.VisionAvailable`.
- Settings.UpdateSettings: an update that sets a field explicitly to `undefined` is not modelled. Neither are stored settings whose fields have the wrong type, nor the `data-theme` attribute written to the document.
- Text.Trim: works on code points. JavaScript strings are UTF-16, so lengths differ for characters outside the Basic Multilingual Plane. Trimming is unaffected, because every whitespace character lies inside that plane.
- The exported `DEFAULT_SHORTCUTS` list of `use-keyboard-shortcuts.ts` is not modelled, because no file registers it. `FirstMatch` covers any list.
- Pure rendering files are not part of this model: `SettingsModal.tsx`, `Header.tsx`, `ChatMessage.tsx`, `TypingIndicator.tsx`, `ToastContainer.tsx`, `Home.tsx` apart from its shortcut list, and `shared/routes.ts`, which holds constants only.

=== FILE: chat_input.dfy ===
/** The input rules of `client/src/components/ChatInput.tsx`: the image
    checks, the extraction of the base64 payload from the data URL, the
    submit guard and payload, and the Enter key rule. The component's state
    is an `InputState` value; the file read is a parameter (`None` for a
    reader error, `Some(dataUrl)` for its result). */
module ChatInput {
  import opened Common
  import opened Text

  const MaxImageSize: nat := 10 * 1024 * 1024
  const AllowedImageTypes: seq<string> := ["image/jpeg", "image/png", "image/gif", "image/webp"]

  const TypeErrorText: string := "Sadece JPG, PNG, GIF veya WEBP formatları destekleniyor"
  const SizeErrorText: string := "Görsel 10MB'dan küçük olmalı"
  const ReadErrorText: string := "Görsel yüklenirken hata oluştu"

  /** The content sent for an image with no text. */
  const ImagePlaceholder: string := "(Görsel gönderildi)"

  /** The file the user picked or dropped: its MIME type and size in bytes. */
  datatype ImageFile = ImageFile(mimeType: string, size: nat)

  /** The component's state: the text typed, the preview data URL, the
      base64 payload and the error shown. */
  datatype InputState = InputState(
    input: string,
    preview: Option<string>,
    imageBase64: Option<string>,
    error: Option<string>)

  /** What `onSend` receives. */
  datatype SendPayload = SendPayload(content: string, imageBase64: Option<string>)

  /** The rejection of a file, if any: the type is checked before the size,
      and a file of exactly 10 MiB is accepted. */
  function CheckImage(file: ImageFile): (r: Option<string>)
    ensures r.None? <==> file.mimeType in AllowedImageTypes && file.size <= MaxImageSize
    ensures file.mimeType !in AllowedImageTypes ==> r == Some(TypeErrorText)
    ensures file.mimeType in AllowedImageTypes && file.size > MaxImageSize ==> r == Some(SizeErrorText)
  {
    if file.mimeType !in AllowedImageTypes then Some(TypeErrorText)
    else if file.size > MaxImageSize then Some(SizeErrorText)
    else None
  }

  /** `dataUrl.split(",")[1]`: the text between the first comma and the
      next one (or the end); absent when there is no comma. */
  function Base64Payload(dataUrl: string): (r: Option<string>)
    ensures ',' !in dataUrl ==> r.None?
    ensures ',' in dataUrl ==> r.Some?
    ensures r.Some? ==> ',' !in r.value
  {
    var pieces := Split(dataUrl, ',');
    assert ',' !in dataUrl ==> |pieces| == 1 by {
      if ',' !in dataUrl {
        SplitNoSeparator(dataUrl, ',');
      }
    }
    if |pieces| > 1 then Some(pieces[1]) else None
  }

  /** For a data URL `header,payload` as a file reader produces it, with a
      comma only after the header, the payload is exactly what is kept. */
  lemma Base64PayloadOfDataUrl(header: string, payload: string)
    requires ',' !in header && ',' !in payload
    ensures Base64Payload(header + "," + payload) == Some(payload)
  {
    SplitOnce(header, payload, ',');
  }

  /** `validateAndProcessImage`: whether the image was taken, and the state
      afterwards. A rejected file only sets the error; a read file becomes
      the preview and its payload the stored base64. */
  function ProcessImage(state: InputState, file: ImageFile, read: Option<string>): (r: (bool, InputState))
    ensures CheckImage(file).Some? ==>
      r == (false, state.(error := CheckImage(file)))
    ensures CheckImage(file).None? && read.None? ==>
      r == (false, state.(error := Some(ReadErrorText)))
    ensures CheckImage(file).None? && read.Some? ==>
      r == (true, state.(preview := read, imageBase64 := Base64Payload(read.value), error := None))
  {
    match CheckImage(file)
    case Some(message) => (false, state.(error := Some(message)))
    case None =>
      match read
      case None => (false, state.(error := Some(ReadErrorText)))
      case Some(dataUrl) =>
        (true, state.(preview := Some(dataUrl), imageBase64 := Base64Payload(dataUrl), error := None))
  }

  /** The state after `removeImage`. */
  function RemoveImage(state: InputState): (r: InputState)
    ensures r.preview.None? && r.imageBase64.None?
    ensures r.input == state.input && r.error == state.error
  {
    state.(preview := None, imageBase64 := None)
  }

  /** A submission goes ahead only when no reply is pending and there is
      non-blank text or an attached image. */
  function Sendable(state: InputState, isLoading: bool): (b: bool)
    ensures b <==> !isLoading && (!AllWhitespace(state.input) || Truthy(state.imageBase64))
  {
    TrimEmptyIff(state.input);
    !isLoading && (Trim(state.input) != "" || Truthy(state.imageBase64))
  }

  /** `handleSubmit`: nothing happens while loading or when the trimmed text
      is empty and there is no image. Otherwise the trimmed text (or the
      image placeholder) and the image are sent, and the input, image and
      error are cleared. */
  function Submit(state: InputState, isLoading: bool): (r: (Option<SendPayload>, InputState))
    ensures !Sendable(state, isLoading) ==> r == (None, state)
    ensures Sendable(state, isLoading) ==>
      && r.0.Some?
      && r.0.value.content == (if Trim(state.input) != "" then Trim(state.input) else ImagePlaceholder)
      && (r.0.value.imageBase64.Some? <==> Truthy(state.imageBase64))
      && (r.0.value.imageBase64.Some? ==> r.0.value.imageBase64 == state.imageBase64)
      && r.1 == InputState("", None, None, None)
  {
    var text := Trim(state.input);
    if (text == "" && !Truthy(state.imageBase64)) || isLoading then (None, state)
    else
      var content := if text != "" then text else ImagePlaceholder;
      var image := if Truthy(state.imageBase64) then state.imageBase64 else None;
      (Some(SendPayload(content, image)), RemoveImage(state.(input := "")).(error := None))
  }

  /** Whatever is sent has visible content: it is never empty or blank. */
  lemma SubmittedContentNotBlank(state: InputState, isLoading: bool)
    ensures var sent := Submit(state, isLoading).0;
      sent.Some? ==> Trim(sent.value.content) != ""
  {
    if !Sendable(state, isLoading) {
      return;
    }
    var content := Submit(state, isLoading).0.value.content;
    if Trim(state.input) != "" {
      assert content == Trim(state.input);
      TrimIdempotent(state.input);
    } else {
      assert content == ImagePlaceholder;
      PlaceholderNotBlank();
    }
  }

  /** The placeholder starts with `(`, so it does not trim to nothing. */
  lemma PlaceholderNotBlank()
    ensures Trim(ImagePlaceholder) != ""
  {
    var p := ImagePlaceholder;
    assert p[0] == '(';
    assert !IsJsWhitespace(p[0]);
    TrimEmptyIff(p);
  }

  /** `handleKeyDown`: Enter without Shift, when Enter-to-send is on, stops
      the newline and submits; every other key is left alone. */
  function KeyDown(key: string, shiftKey: bool, enterToSend: bool, state: InputState, isLoading: bool)
    : (r: (bool, Option<SendPayload>, InputState))
    ensures r.0 <==> key == "Enter" && !shiftKey && enterToSend
    ensures r.0 ==> (r.1, r.2) == Submit(state, isLoading)
    ensures !r.0 ==> r.1.None? && r.2 == state
  {
    if key == "Enter" && !shiftKey && enterToSend then
      var (payload, next) := Submit(state, isLoading);
      (true, payload, next)
    else (false, None, state)
  }

  /** Enter on a blank input without an image still swallows the newline,
      but sends nothing and keeps the state. */
  lemma EnterOnBlankInput(state: InputState, isLoading: bool)
    requires AllWhitespace(state.input) && !Truthy(state.imageBase64)
    ensures KeyDown("Enter", false, true, state, isLoading) == (true, None, state)
  {
    TrimEmptyIff(state.input);
  }

  /** An accepted image read as `header,payload` is what the next submit
      sends, with the placeholder when no text was typed. */
  lemma AcceptedImageIsSent(state: InputState, file: ImageFile, header: string, payload: string)
    requires CheckImage(file).None?
    requires ',' !in header && ',' !in payload && payload != ""
    requires AllWhitespace(state.input)
    ensures var (ok, next) := ProcessImage(state, file, Some(header + "," + payload));
      ok && Submit(next, false).0 == Some(SendPayload(ImagePlaceholder, Some(payload)))
  {
    var next := ProcessImage(state, file, Some(header + "," + payload)).1;
    assert next.imageBase64 == Some(payload) by {
      Base64PayloadOfDataUrl(header, payload);
    }
    assert Trim(next.input) == "" by {
      TrimEmptyIff(state.input);
    }
  }
}

=== FILE: chat_types.dfy ===
/** The records that travel between the browser client, the route handler
    and the model gateway. */
module ChatTypes {
  import opened Common

  /** The author of a turn. */
  datatype Role = System | User | Assistant

  /** One part of a multimodal turn, as the completion API shapes it:
      `{type: "text", text}` or `{type: "image_url", image_url: {url}}`. */
  datatype Part = TextPart(text: string) | ImagePart(url: string)

  /** Turn content: a plain string or an ordered list of parts. */
  datatype Content = Text(text: string) | Parts(parts: seq<Part>)

  /** A conversation turn reduced to role and content, the shape the
      server works with. */
  datatype Turn = Turn(role: Role, content: Content)

  /** The body of `POST /api/chat` once it has been validated: the new
      text, the optional prior history and the optional image. */
  datatype ChatBody = ChatBody(
    content: string,
    history: Option<seq<Turn>>,
    imageUrl: Option<string>,
    imageBase64: Option<string>)

  /** A message as the client stores it; the timestamp is in milliseconds
      since the epoch. The assistant reply produced by the route has the
      same shape with no image fields. */
  datatype Message = Message(
    id: int,
    role: Role,
    content: string,
    timestamp: int,
    imageUrl: Option<string>,
    imageBase64: Option<string>)

  /** A client message reduced to `{role, content}`, the form in which the
      client sends its history. */
  function ToTurn(m: Message): (t: Turn)
    ensures t.role == m.role && t.content == Text(m.content)
  {
    Turn(m.role, Text(m.content))
  }

  /** `history.map(m => ({role: m.role, content: m.content}))`. */
  function ToTurns(ms: seq<Message>): (ts: seq<Turn>)
    ensures |ts| == |ms|
    ensures forall i :: 0 <= i < |ms| ==> ts[i] == ToTurn(ms[i])
  {
    seq(|ms|, i requires 0 <= i < |ms| => ToTurn(ms[i]))
  }

  /** The role of each turn, in order. */
  function Roles(ts: seq<Turn>): (rs: seq<Role>)
    ensures |rs| == |ts|
    ensures forall i :: 0 <= i < |ts| ==> rs[i] == ts[i].role
  {
    seq(|ts|, i requires 0 <= i < |ts| => ts[i].role)
  }

  /** Reducing to turns commutes with appending. */
  lemma ToTurnsAppend(a: seq<Message>, b: seq<Message>)
    ensures ToTurns(a + b) == ToTurns(a) + ToTurns(b)
  {
    assert forall i :: 0 <= i < |a + b| ==> ToTurns(a + b)[i] == (ToTurns(a) + ToTurns(b))[i];
  }
}

=== FILE: common.dfy ===
/** Optional values and success/failure results, used wherever the program
    works with `undefined`, `null` or a thrown error. */
module Common {

  /** A value that may be absent (`undefined` / `null` in the program). */
  datatype Option<+T> = None | Some(value: T) {

    /** `x ?? fallback` (and `x || fallback` for a list, which is never
        falsy): the value when present, `fallback` otherwise. */
    function OrElse(fallback: T): (r: T)
      ensures Some? ==> r == value
      ensures None? ==> r == fallback
    {
      if Some? then value else fallback
    }
  }

  /** The outcome of an operation that can throw: the value it returns or
      the message of the error it throws. */
  datatype Result<+T> = Ok(value: T) | Err(error: string)

  /** JavaScript truthiness of an optional string: `undefined`, `null` and
      the empty string are falsy, every other string is truthy. */
  predicate Truthy(s: Option<string>) {
    s.Some? && s.value != ""
  }
}

=== FILE: keyboard_shortcuts.dfy ===
/** The key handler of `client/src/hooks/use-keyboard-shortcuts.ts`: the
    first shortcut in list order that matches the event runs, and the
    browser default is prevented exactly when one runs. A shortcut's action
    is named by its position in the list. */
module KeyboardShortcuts {
  import opened Common

  /** A shortcut; an absent modifier flag behaves as `false`. */
  datatype Shortcut = Shortcut(key: string, ctrl: Option<bool>, shift: Option<bool>, alt: Option<bool>)

  /** The fields of a `keydown` event the handler reads. */
  datatype KeyEvent = KeyEvent(key: string, ctrlKey: bool, metaKey: bool, shiftKey: bool, altKey: bool)

  /** A modifier flag is set only when it is present and true. */
  predicate Flag(f: Option<bool>) {
    f == Some(true)
  }

  /** The match test: the key compared exactly; a set `ctrl` flag accepts
      Ctrl or Meta, an unset one requires neither; `shift` and `alt` must
      agree with the event. */
  function Matches(s: Shortcut, e: KeyEvent): (b: bool)
    ensures b <==>
      && e.key == s.key
      && (e.ctrlKey || e.metaKey) == Flag(s.ctrl)
      && e.shiftKey == Flag(s.shift)
      && e.altKey == Flag(s.alt)
  {
    && e.key == s.key
    && (if Flag(s.ctrl) then e.ctrlKey || e.metaKey else !e.ctrlKey && !e.metaKey)
    && (if Flag(s.shift) then e.shiftKey else !e.shiftKey)
    && (if Flag(s.alt) then e.altKey else !e.altKey)
  }

  /** Position of the first matching shortcut, if any. */
  function FirstMatch(shortcuts: seq<Shortcut>, e: KeyEvent): (r: Option<nat>)
    ensures r.Some? ==>
      r.value < |shortcuts| && Matches(shortcuts[r.value], e)
      && forall j :: 0 <= j < r.value ==> !Matches(shortcuts[j], e)
    ensures r.None? ==> forall j :: 0 <= j < |shortcuts| ==> !Matches(shortcuts[j], e)
    decreases |shortcuts|
  {
    if shortcuts == [] then None
    else if Matches(shortcuts[0], e) then Some(0)
    else
      match FirstMatch(shortcuts[1..], e)
      case None => None
      case Some(i) => Some(i + 1)
  }

  /** `handleKeyDown`, loop for loop: whether `preventDefault` was called
      and which action ran. A disabled handler does nothing. */
  method HandleKeyDown(shortcuts: seq<Shortcut>, e: KeyEvent, enabled: bool)
    returns (prevented: bool, fired: Option<nat>)
    ensures !enabled ==> !prevented && fired.None?
    ensures prevented <==> fired.Some?
    ensures fired.Some? ==>
      fired.value < |shortcuts| && Matches(shortcuts[fired.value], e)
      && forall j :: 0 <= j < fired.value ==> !Matches(shortcuts[j], e)
    ensures enabled && fired.None? ==> forall j :: 0 <= j < |shortcuts| ==> !Matches(shortcuts[j], e)
    ensures enabled ==> fired == FirstMatch(shortcuts, e)
  {
    prevented, fired := false, None;
    if !enabled {
      return;
    }
    var i := 0;
    while i < |shortcuts|
      invariant 0 <= i <= |shortcuts|
      invariant forall j :: 0 <= j < i ==> !Matches(shortcuts[j], e)
      invariant !prevented && fired.None?
    {
      if Matches(shortcuts[i], e) {
        prevented, fired := true, Some(i);
        break;
      }
      i := i + 1;
    }
    FirstMatchUnique(shortcuts, e, fired);
  }

  /** The first match is unique: any answer with its properties is it. */
  lemma FirstMatchUnique(shortcuts: seq<Shortcut>, e: KeyEvent, r: Option<nat>)
    requires r.Some? ==>
      r.value < |shortcuts| && Matches(shortcuts[r.value], e)
      && forall j :: 0 <= j < r.value ==> !Matches(shortcuts[j], e)
    requires r.None? ==> forall j :: 0 <= j < |shortcuts| ==> !Matches(shortcuts[j], e)
    ensures r == FirstMatch(shortcuts, e)
  {
  }

  /** An absent modifier flag and a `false` one match the same events. */
  lemma AbsentFlagIsFalse(s: Shortcut, e: KeyEvent)
    ensures Matches(s.(ctrl := None), e) == Matches(s.(ctrl := Some(false)), e)
    ensures Matches(s.(shift := None), e) == Matches(s.(shift := Some(false)), e)
    ensures Matches(s.(alt := None), e) == Matches(s.(alt := Some(false)), e)
  {
  }

  /** The list the home page registers: Ctrl+K (clear the chat) and Escape
      (close the settings). */
  const HomeShortcuts: seq<Shortcut> := [
    Shortcut("k", Some(true), None, None),
    Shortcut("Escape", None, None, None)
  ]

  /** On the home page, K with Ctrl or Cmd and no Shift or Alt runs the clear
      action, a bare Escape runs the close action, and every other key event
      runs nothing. */
  lemma HomeShortcutsDispatch(e: KeyEvent)
    ensures FirstMatch(HomeShortcuts, e) == Some(0) <==>
      e.key == "k" && (e.ctrlKey || e.metaKey) && !e.shiftKey && !e.altKey
    ensures FirstMatch(HomeShortcuts, e) == Some(1) <==>
      e.key == "Escape" && !e.ctrlKey && !e.metaKey && !e.shiftKey && !e.altKey
    ensures FirstMatch(HomeShortcuts, e).None? <==>
      !(e.key == "k" && (e.ctrlKey || e.metaKey) && !e.shiftKey && !e.altKey)
      && !(e.key == "Escape" && !e.ctrlKey && !e.metaKey && !e.shiftKey && !e.altKey)
  {
    assert HomeShortcuts[1..] == [Shortcut("Escape", None, None, None)];
  }
}

=== FILE: openai.dfy ===
/** The model gateway of `server/openai.ts`: the context window, the shaping
    of the completion request for the text and the vision model, and the
    mapping of every completion outcome to a displayable reply.

    The completion API is not modelled: each entry point receives it as a
    function `complete` from request to `Completion`, so a proof about an
    entry point holds whatever the API answers. */
module OpenAI {
  import opened Common
  import opened Seqs
  import opened Text
  import opened ChatTypes

  /** Histories of at most this many turns are sent unchanged. */
  const MaxUnsummarized: nat := 20
  /** How many of the most recent turns a longer history keeps. */
  const RecentKept: nat := 15

  const Model: string := "gpt-4o"
  const VisionModel: string := "gpt-4o"
  const Temperature: real := 0.8
  const MaxTokens: nat := 2000

  const SummaryPrefix: string := "[Önceki "
  const SummarySuffix: string := " mesaj özetlendi: Kullanıcı ve asistan arasında çeşitli konularda sohbet edildi]"

  /** Appended to the system prompt of a vision request. */
  const VisionClause: string := "\n\n📸 Görsel analiz yeteneğin de var. Görselleri detaylı inceleyip yorumlayabilirsin."

  /** Fixed replies of the text path. */
  const EmptyReplyText: string := "Hmm, cevap oluşturamadım. Bir daha dener misin?"
  const BusyText: string := "Şu an biraz yoğunum, birkaç saniye sonra tekrar dener misin?"
  const ApiIssueText: string := "API bağlantısında bi sıkıntı var gibi. Ahmet'e haber ver lütfen."
  const OfflineText: string := "İnternet bağlantısı yok gibi. Bağlantını kontrol eder misin?"
  const UnexpectedText: string := "Beklenmedik bir hata oluştu. Tekrar deneyebilir misin?"

  /** Fixed replies of the vision path. */
  const VisionDisabledText: string := "Görseli aldım! Ancak şu an görsel analiz özelliği aktif değil. Yine de metin olarak yardımcı olabilirim."
  const VisionEmptyText: string := "Görseli inceledim ama yorum yapamadım. Tekrar dener misin?"
  const VisionBusyText: string := "Şu an çok yoğunum, birkaç saniye bekleyip tekrar dener misin?"
  const VisionErrorText: string := "Görsel işlenirken bir sorun çıktı. Normal mesaj olarak devam edebiliriz."

  const DataUriPrefix: string := "data:image/jpeg;base64,"

  // ---------------------------------------------------------------------
  // Context window
  // ---------------------------------------------------------------------

  /** Where a `slice` argument lands in a sequence of length `len`:
      negative arguments count from the end, and both ends are clamped. */
  function SliceIndex(i: int, len: nat): (k: nat)
    ensures k <= len
    ensures 0 <= i <= len ==> k == i
    ensures -(len as int) <= i < 0 ==> k == len + i
    ensures i > len ==> k == len
    ensures i < -(len as int) ==> k == 0
  {
    if i < 0 then (if len + i < 0 then 0 else len + i)
    else if i > len then len
    else i
  }

  /** `s.slice(start, end)` with JavaScript's index rules. */
  function JsSlice<T>(s: seq<T>, start: int, end: int): (r: seq<T>)
    ensures var a, b := SliceIndex(start, |s|), SliceIndex(end, |s|);
      |r| == (if a <= b then b - a else 0)
      && forall k :: 0 <= k < |r| ==> r[k] == s[a + k]
  {
    var a, b := SliceIndex(start, |s|), SliceIndex(end, |s|);
    if a <= b then s[a..b] else []
  }

  /** The text of the system turn that stands in for `count` older turns;
      `SummaryCount` reads the count back out of it. */
  function SummaryText(count: nat): (r: string)
    ensures SummaryCount(r) == Some(count)
  {
    var t := SummaryPrefix + NatToString(count) + SummarySuffix;
    assert t[..|SummaryPrefix|] == SummaryPrefix;
    assert t[|t| - |SummarySuffix|..] == SummarySuffix;
    assert t[|SummaryPrefix|..|t| - |SummarySuffix|] == NatToString(count);
    DigitsValueOfNatToString(count);
    t
  }

  /** Reads the count back out of a summary text; `None` for any text that
      is not of the summary's shape, which includes a count written with a
      leading zero. */
  function SummaryCount(t: string): Option<nat> {
    if |t| < |SummaryPrefix| + |SummarySuffix| then None
    else
      var digits := t[|SummaryPrefix|..|t| - |SummarySuffix|];
      if t[..|SummaryPrefix|] == SummaryPrefix
         && t[|t| - |SummarySuffix|..] == SummarySuffix
         && digits != []
         && (|digits| == 1 || digits[0] != '0')
         && (forall i :: 0 <= i < |digits| ==> IsDigit(digits[i]))
      then Some(DigitsValue(digits))
      else None
  }

  function SummaryTurn(count: nat): Turn {
    Turn(System, Text(SummaryText(count)))
  }

  /** `summarizeContext`: a history of at most 20 turns is returned as it
      is; a longer one becomes its first turn, one system turn counting the
      n - 16 turns left out, and its last 15 turns. The fallback that returns
      a long history whole when nothing lies between the first and the last
      15 turns cannot be taken, as the length clauses show. */
  function SummarizeContext(msgs: seq<Turn>): (r: seq<Turn>)
    ensures |msgs| <= MaxUnsummarized ==> r == msgs
    ensures |msgs| > MaxUnsummarized ==>
      && |r| == RecentKept + 2
      && r[0] == msgs[0]
      && r[1] == SummaryTurn(|msgs| - RecentKept - 1)
      && r[2..] == msgs[|msgs| - RecentKept..]
    ensures |r| <= MaxUnsummarized
  {
    if |msgs| <= MaxUnsummarized then msgs
    else
      var first := msgs[0];
      var recent := JsSlice(msgs, -(RecentKept as int), |msgs|);
      var middle := JsSlice(msgs, 1, -(RecentKept as int));
      assert recent == msgs[|msgs| - RecentKept..];
      if |middle| > 0 then [first, SummaryTurn(|middle|)] + recent
      else msgs
  }

  /** Windowing a window changes nothing: its output is never longer than
      20 turns, which is the identity branch. */
  lemma SummarizeIdempotent(msgs: seq<Turn>)
    ensures SummarizeContext(SummarizeContext(msgs)) == SummarizeContext(msgs)
  {
  }

  /** The summary turn of a long history states, in a form that can be read
      back, exactly how many turns it replaced. */
  lemma SummaryStatesMiddleCount(msgs: seq<Turn>)
    requires |msgs| > MaxUnsummarized
    ensures var r := SummarizeContext(msgs);
      r[1].role == System && r[1].content.Text?
      && SummaryCount(r[1].content.text) == Some(|msgs| - RecentKept - 1)
  {
  }

  /** Every turn of the window except the summary is a turn of the history,
      in the history's order. */
  lemma WindowKeepsOrder(msgs: seq<Turn>)
    requires |msgs| > MaxUnsummarized
    ensures var r := SummarizeContext(msgs);
      SubseqOf([r[0]] + r[2..], msgs)
  {
    var r := SummarizeContext(msgs);
    var k := |msgs| - RecentKept;
    assert r[0] == msgs[0] && r[2..] == msgs[k..];
    KeptTurnsInOrder(r, msgs, k);
  }

  /** A window whose first turn is that of `msgs` and whose turns from the
      third on are a suffix of `msgs` keeps those turns in order. */
  lemma KeptTurnsInOrder(r: seq<Turn>, msgs: seq<Turn>, k: nat)
    requires 2 <= |r| && 1 <= k <= |msgs|
    requires r[0] == msgs[0] && r[2..] == msgs[k..]
    ensures SubseqOf([r[0]] + r[2..], msgs)
  {
    HeadAndSuffixIsSubseq(msgs, k);
    assert [r[0]] + r[2..] == [msgs[0]] + msgs[k..];
  }

  // ---------------------------------------------------------------------
  // Completion outcomes and replies
  // ---------------------------------------------------------------------

  /** What the completion API did: answered with a list of choices (the
      content of each choice's message, possibly absent), or failed with an
      error carrying an optional HTTP status and an optional error code. */
  datatype Completion =
    | Completed(choices: seq<Option<string>>)
    | Failed(status: Option<int>, code: Option<string>)

  /** The request body sent to the completion API. */
  datatype ChatRequest = ChatRequest(
    model: string,
    messages: seq<Turn>,
    temperature: real,
    maxTokens: nat)

  /** What an entry point did: the request it sent (`None` when it answered
      without calling the API) and the text it returned. */
  datatype GatewayResult = GatewayResult(request: Option<ChatRequest>, reply: string)

  /** The failure classes the text path tells apart. */
  datatype FailureKind = RateLimited | Unauthorized | NetworkUnreachable | Unclassified

  /** How the text path classifies a caught error: status 429, then status
      401, then code ENOTFOUND or ECONNREFUSED, else unclassified. */
  function ClassifyFailure(status: Option<int>, code: Option<string>): (k: FailureKind)
    ensures k == RateLimited <==> status == Some(429)
    ensures k == Unauthorized <==> status == Some(401)
    ensures k == NetworkUnreachable <==>
      status != Some(429) && status != Some(401)
      && (code == Some("ENOTFOUND") || code == Some("ECONNREFUSED"))
  {
    if status == Some(429) then RateLimited
    else if status == Some(401) then Unauthorized
    else if code == Some("ENOTFOUND") || code == Some("ECONNREFUSED") then NetworkUnreachable
    else Unclassified
  }

  function FailureText(k: FailureKind): string {
    match k
    case RateLimited => BusyText
    case Unauthorized => ApiIssueText
    case NetworkUnreachable => OfflineText
    case Unclassified => UnexpectedText
  }

  /** The failure class a reply text stands for, if it is one of the fixed
      failure texts. */
  function FailureOfText(t: string): Option<FailureKind> {
    if t == BusyText then Some(RateLimited)
    else if t == ApiIssueText then Some(Unauthorized)
    else if t == OfflineText then Some(NetworkUnreachable)
    else if t == UnexpectedText then Some(Unclassified)
    else None
  }

  /** The four failure texts are distinct, so the reply alone tells which
      class of failure occurred. */
  lemma FailureTextsDistinct(k: FailureKind)
    ensures FailureOfText(FailureText(k)) == Some(k)
  {
    assert BusyText != ApiIssueText && BusyText != OfflineText && BusyText != UnexpectedText;
    assert ApiIssueText != OfflineText && ApiIssueText != UnexpectedText;
    assert OfflineText != UnexpectedText;
  }

  /** The error a completion raises inside the `try`: the API's own error,
      or a TypeError from reading `choices[0]` of an empty choice list,
      which has neither status nor code. */
  function CaughtError(c: Completion): (e: Option<(Option<int>, Option<string>)>)
    ensures e.None? <==> c.Completed? && |c.choices| > 0
    ensures c.Failed? ==> e == Some((c.status, c.code))
    ensures c.Completed? && |c.choices| == 0 ==> e == Some((None, None))
  {
    match c
    case Failed(status, code) => Some((status, code))
    case Completed(choices) => if |choices| == 0 then Some((None, None)) else None
  }

  /** The reply of `getChatResponse` for a completion outcome. */
  function TextReply(c: Completion): (r: string)
    ensures c.Completed? && |c.choices| > 0 && Truthy(c.choices[0]) ==> r == c.choices[0].value
    ensures c.Completed? && |c.choices| > 0 && !Truthy(c.choices[0]) ==> r == EmptyReplyText
    ensures c.Completed? && |c.choices| == 0 ==> r == UnexpectedText
    ensures c.Failed? ==> r == FailureText(ClassifyFailure(c.status, c.code))
  {
    match CaughtError(c)
    case Some((status, code)) => FailureText(ClassifyFailure(status, code))
    case None =>
      var first := c.choices[0];
      if Truthy(first) then first.value else EmptyReplyText
  }

  /** The reply of `getChatResponseWithVision` for a completion outcome:
      only status 429 is told apart from other failures. */
  function VisionReply(c: Completion): (r: string)
    ensures c.Completed? && |c.choices| > 0 && Truthy(c.choices[0]) ==> r == c.choices[0].value
    ensures c.Completed? && |c.choices| > 0 && !Truthy(c.choices[0]) ==> r == VisionEmptyText
    ensures c.Completed? && |c.choices| == 0 ==> r == VisionErrorText
    ensures c.Failed? ==> (r == VisionBusyText <==> c.status == Some(429))
    ensures c.Failed? && c.status != Some(429) ==> r == VisionErrorText
  {
    match CaughtError(c)
    case Some((status, code)) => if status == Some(429) then VisionBusyText else VisionErrorText
    case None =>
      var first := c.choices[0];
      if Truthy(first) then first.value else VisionEmptyText
  }

  // ---------------------------------------------------------------------
  // Request shaping
  // ---------------------------------------------------------------------

  /** The per-turn formatting of the vision path: a string turn is copied
      as `{role, content}`, any other turn is passed on as it is. */
  function FormatTurn(t: Turn): Turn {
    match t.content
    case Text(s) => Turn(t.role, Text(s))
    case Parts(_) => t
  }

  /** Formatting changes no turn of this model: copying role and string
      content rebuilds the same turn. */
  function FormatTurns(ts: seq<Turn>): (r: seq<Turn>)
    ensures r == ts
  {
    seq(|ts|, i requires 0 <= i < |ts| => FormatTurn(ts[i]))
  }

  /** The image is present in the sense of `imageUrl || imageBase64`. */
  function HasImage(imageUrl: Option<string>, imageBase64: Option<string>): (b: bool)
    ensures !b <==> (imageUrl.None? || imageUrl.value == "") && (imageBase64.None? || imageBase64.value == "")
  {
    Truthy(imageUrl) || Truthy(imageBase64)
  }

  /** A value as a template literal renders it. */
  function TemplateString(o: Option<string>): string {
    match o
    case Some(s) => s
    case None => "undefined"
  }

  /** `imageUrl || \`data:image/jpeg;base64,${imageBase64}\``. */
  function ImageRef(imageUrl: Option<string>, imageBase64: Option<string>): (url: string)
    ensures Truthy(imageUrl) ==> url == imageUrl.value
    ensures !Truthy(imageUrl) && imageBase64.Some? ==> url == DataUriPrefix + imageBase64.value
  {
    if Truthy(imageUrl) then imageUrl.value else DataUriPrefix + TemplateString(imageBase64)
  }

  /** Whenever an image is present the reference is the URL or a data URI
      of the base64 payload; the `undefined` rendering never occurs, and the
      media type is `image/jpeg` whatever the image's own type. */
  lemma ImageRefWhenPresent(imageUrl: Option<string>, imageBase64: Option<string>)
    requires HasImage(imageUrl, imageBase64)
    ensures (Truthy(imageUrl) && ImageRef(imageUrl, imageBase64) == imageUrl.value)
      || (!Truthy(imageUrl) && imageBase64.Some?
          && ImageRef(imageUrl, imageBase64) == DataUriPrefix + imageBase64.value)
  {
  }

  /** The text kept when a turn gains an image: its string content, else
      the `text` of its first part when that is a non-empty text part, else
      the empty string. */
  function LeadingText(c: Content): (s: string)
    ensures c.Text? ==> s == c.text
    ensures c.Parts? && |c.parts| > 0 && c.parts[0].TextPart? ==> s == c.parts[0].text
    ensures c.Parts? && (|c.parts| == 0 || !c.parts[0].TextPart?) ==> s == ""
  {
    match c
    case Text(s) => s
    case Parts(ps) =>
      if |ps| > 0 && ps[0].TextPart? then ps[0].text else ""
  }

  /** A turn turned into a `user` turn of a text part and an image part;
      the text it keeps is the one a second merge would keep too. */
  function WithImage(t: Turn, url: string): (r: Turn)
    ensures r.role == User && r.content.Parts? && |r.content.parts| == 2
    ensures r.content.parts[0].TextPart? && r.content.parts[1] == ImagePart(url)
    ensures LeadingText(r.content) == LeadingText(t.content)
    ensures t.content.Text? ==> r.content.parts[0].text == t.content.text
  {
    Turn(User, Parts([TextPart(LeadingText(t.content)), ImagePart(url)]))
  }

  /** Replaces the last `user` turn by a text part and an image part; a
      list without a `user` turn is returned unchanged. */
  function MergeImage(ts: seq<Turn>, url: string): (r: seq<Turn>)
    ensures (forall j :: 0 <= j < |ts| ==> ts[j].role != User) ==> r == ts
    ensures (exists j :: 0 <= j < |ts| && ts[j].role == User) ==>
      exists k :: 0 <= k < |ts| && ts[k].role == User
        && (forall j :: k < j < |ts| ==> ts[j].role != User)
        && r == ts[k := WithImage(ts[k], url)]
  {
    var k := LastIndexOf(Roles(ts), User);
    if k == -1 then ts else ts[k := WithImage(ts[k], url)]
  }

  // ---------------------------------------------------------------------
  // Entry points
  // ---------------------------------------------------------------------

  /** `getChatResponse`: one request whose messages are a single system
      turn carrying `systemPrompt` followed by the window of `messages`,
      and the reply mapped from the API's answer to it. */
  function GetChatResponse(
    messages: seq<Turn>, systemPrompt: string, complete: ChatRequest -> Completion): (r: GatewayResult)
    ensures r.request.Some?
    ensures var req := r.request.value;
      && req.model == Model && req.temperature == Temperature && req.maxTokens == MaxTokens
      && |req.messages| >= 1
      && req.messages[0] == Turn(System, Text(systemPrompt))
      && req.messages[1..] == SummarizeContext(messages)
      && r.reply == TextReply(complete(req))
    ensures |r.request.value.messages| <= MaxUnsummarized + 1
    ensures |messages| <= MaxUnsummarized ==>
      r.request.value.messages == [Turn(System, Text(systemPrompt))] + messages
  {
    var req := ChatRequest(
      Model, [Turn(System, Text(systemPrompt))] + SummarizeContext(messages), Temperature, MaxTokens);
    GatewayResult(Some(req), TextReply(complete(req)))
  }

  /** `getChatResponseWithVision`. Without vision support an image is only
      acknowledged and the API is not called. Otherwise the request holds
      one system turn (the prompt plus the vision clause) and the window of
      `messages`, whose last `user` turn carries the image when there is
      one. */
  function GetChatResponseWithVision(
    messages: seq<Turn>, imageUrl: Option<string>, imageBase64: Option<string>,
    hasVisionSupport: bool, systemPrompt: string,
    complete: ChatRequest -> Completion): (r: GatewayResult)
    ensures !hasVisionSupport && HasImage(imageUrl, imageBase64) ==>
      r.request.None? && r.reply == VisionDisabledText
    ensures hasVisionSupport || !HasImage(imageUrl, imageBase64) ==>
      && r.request.Some?
      && var req := r.request.value;
      && req.model == VisionModel && req.temperature == Temperature && req.maxTokens == MaxTokens
      && |req.messages| == 1 + |SummarizeContext(messages)|
      && req.messages[0] == Turn(System, Text(systemPrompt + VisionClause))
      && (HasImage(imageUrl, imageBase64) ==>
            req.messages[1..] == MergeImage(SummarizeContext(messages), ImageRef(imageUrl, imageBase64)))
      && (!HasImage(imageUrl, imageBase64) ==> req.messages[1..] == SummarizeContext(messages))
      && r.reply == VisionReply(complete(req))
    ensures r.request.Some? ==> |r.request.value.messages| <= MaxUnsummarized + 1
    ensures r.request.Some? && !HasImage(imageUrl, imageBase64) && |messages| <= MaxUnsummarized ==>
      r.request.value.messages == [Turn(System, Text(systemPrompt + VisionClause))] + messages
  {
    if !hasVisionSupport && HasImage(imageUrl, imageBase64) then
      GatewayResult(None, VisionDisabledText)
    else
      var formatted := FormatTurns(SummarizeContext(messages));
      var turns :=
        if HasImage(imageUrl, imageBase64) then MergeImage(formatted, ImageRef(imageUrl, imageBase64))
        else formatted;
      var req := ChatRequest(
        VisionModel, [Turn(System, Text(systemPrompt + VisionClause))] + turns, Temperature, MaxTokens);
      GatewayResult(Some(req), VisionReply(complete(req)))
  }

  /** `isVisionAvailable`: vision is available exactly when the deployment
      has the credential. */
  function IsVisionAvailable(hasVisionSupport: bool): (available: bool)
    ensures available <==> hasVisionSupport
  {
    hasVisionSupport
  }
}

=== FILE: pipeline.dfy ===
/** End-to-end properties of one chat round: the client's send, the route
    handler and the gateway taken together. */
module Pipeline {
  import opened Common
  import opened Seqs
  import opened ChatTypes
  import opened OpenAI
  import opened Routes
  import opened UseChat

  /** The client already puts the new user message at the end of the
      history it sends, and the route appends the same text once more, so
      the gateway receives the user's turn twice in a row. */
  lemma UserTurnReachesGatewayTwice(
    history: seq<Message>, content: string, imageUrl: Option<string>, imageBase64: Option<string>,
    userId: int, now: int, server: Answer)
    requires content != ""
    ensures var sent := SendMessage(Some(history), content, imageUrl, imageBase64, userId, now, server);
      var u := Turn(User, Text(content));
      ChatCall(sent.request.value).messages == ChatContext(Some(ToTurns(history))) + [u, u]
  {
    var user := Message(userId, User, content, now, imageUrl, imageBase64);
    var u := Turn(User, Text(content));
    ToTurnsAppend(history, [user]);
    assert ToTurns([user]) == [u];
    ChatContextAppend(ToTurns(history), u);
    assert ChatContext(Some(ToTurns(history))) + [u] + [u] == ChatContext(Some(ToTurns(history))) + [u, u];
  }

  /** A first message "Merhaba" after the welcome goes to the text model as
      four turns: the system prompt, the welcome, and the user's turn twice. */
  lemma FirstMessageAfterWelcome(clock: Clock, userId: int, now: int, server: Answer, env: Env)
    ensures var welcome := WelcomeMessage(clock);
      var sent := SendMessage(Some([welcome]), "Merhaba", None, None, userId, now, server);
      var u := Turn(User, Text("Merhaba"));
      && ChatCall(sent.request.value) == TextCall([ToTurn(welcome), u, u])
      && GetChatResponse([ToTurn(welcome), u, u], env.systemPrompt, env.complete).request.value.messages
         == [Turn(System, Text(env.systemPrompt)), ToTurn(welcome), u, u]
  {
    WelcomeNotEmpty(clock);
    FirstMessageAfterGreeting(WelcomeMessage(clock), "Merhaba", userId, now, server, env);
  }

  /** The welcome text is never empty, so the context filter keeps it. */
  lemma WelcomeNotEmpty(clock: Clock)
    ensures WelcomeMessage(clock).content != ""
  {
    assert |WelcomeHead| > 0;
  }

  /** The first text message after a non-empty greeting reaches the text
      model as the system prompt, the greeting, and the user's turn twice. */
  lemma FirstMessageAfterGreeting(
    greeting: Message, content: string, userId: int, now: int, server: Answer, env: Env)
    requires greeting.content != "" && content != ""
    ensures var sent := SendMessage(Some([greeting]), content, None, None, userId, now, server);
      var u := Turn(User, Text(content));
      && ChatCall(sent.request.value) == TextCall([ToTurn(greeting), u, u])
      && GetChatResponse([ToTurn(greeting), u, u], env.systemPrompt, env.complete).request.value.messages
         == [Turn(System, Text(env.systemPrompt)), ToTurn(greeting), u, u]
  {
    GreetingCall(greeting, content, userId, now, server);
    ThreeTurnTextRequest(ToTurn(greeting), Turn(User, Text(content)), env);
  }

  /** Three turns are sent to the text model whole, after the system
      prompt. */
  lemma ThreeTurnTextRequest(g: Turn, u: Turn, env: Env)
    ensures GetChatResponse([g, u, u], env.systemPrompt, env.complete).request.value.messages
      == [Turn(System, Text(env.systemPrompt)), g, u, u]
  {
    assert [Turn(System, Text(env.systemPrompt))] + [g, u, u]
      == [Turn(System, Text(env.systemPrompt)), g, u, u];
  }

  /** The call the route makes for the first text message after a
      non-empty greeting: the greeting and the user's turn twice. */
  lemma GreetingCall(greeting: Message, content: string, userId: int, now: int, server: Answer)
    requires greeting.content != "" && content != ""
    ensures var sent := SendMessage(Some([greeting]), content, None, None, userId, now, server);
      var u := Turn(User, Text(content));
      ChatCall(sent.request.value) == TextCall([ToTurn(greeting), u, u])
  {
    var g := ToTurn(greeting);
    var u := Turn(User, Text(content));
    var sent := SendMessage(Some([greeting]), content, None, None, userId, now, server);
    assert ChatContext(Some(ToTurns([greeting]))) == [g] by {
      assert ToTurns([greeting]) == [g];
      ChatContextKeepsFullHistory([g]);
    }
    assert ChatCall(sent.request.value).messages == [g, u, u] by {
      UserTurnReachesGatewayTwice([greeting], content, None, None, userId, now, server);
    }
  }

  /** A history of 25 turns is windowed to 17: the first turn, a summary of
      the 9 turns in between, and the turns at positions 10 to 24. */
  lemma TwentyFiveTurns(msgs: seq<Turn>)
    requires |msgs| == 25
    ensures var r := SummarizeContext(msgs);
      && |r| == 17
      && r[0] == msgs[0]
      && r[1].content.Text? && SummaryCount(r[1].content.text) == Some(9)
      && r[2..] == msgs[10..]
  {
    SummaryStatesMiddleCount(msgs);
  }

  /** An image sent with no prior history and no text reaches the vision
      model as one user turn holding an empty text part and the JPEG data
      URI of the payload. */
  lemma ImageOnlyRequest(b64: string, env: Env)
    requires b64 != "" && env.hasVisionSupport
    requires 0.0 <= env.random < 1.0
    ensures var out := HandleChat(Valid(ChatBody("", Some([]), None, Some(b64))), env);
      var call := out.call.value;
      && call.VisionCall?
      && GetChatResponseWithVision(call.messages, call.imageUrl, call.imageBase64,
           env.hasVisionSupport, env.systemPrompt, env.complete).request.value.messages
         == [Turn(System, Text(env.systemPrompt + VisionClause)),
             Turn(User, Parts([TextPart(""), ImagePart(DataUriPrefix + b64)]))]
  {
    // These steps steer the solver through the route's filter and the
    // last-user search; without them the proof runs out of resource.
    assert Filter([], HasContent) == [];
    var turns := [Turn(User, Text(""))];
    assert Roles(turns) == [User];
    assert LastIndexOf([User], User) == 0;
  }

  /** With an image, the image lands on the turn the route appended; the
      copy of the same text that came with the history stays plain text. */
  lemma ImageLandsOnAppendedTurn(
    history: seq<Message>, content: string, imageBase64: string,
    userId: int, now: int, server: Answer, env: Env)
    requires content != "" && imageBase64 != "" && env.hasVisionSupport
    requires |history| < 19
    ensures var sent := SendMessage(Some(history), content, None, Some(imageBase64), userId, now, server);
      var u := Turn(User, Text(content));
      var context := ChatContext(Some(ToTurns(history)));
      && ChatCall(sent.request.value) == VisionCall(context + [u, u], None, Some(imageBase64))
      && GetChatResponseWithVision(context + [u, u], None, Some(imageBase64),
           env.hasVisionSupport, env.systemPrompt, env.complete).request.value.messages
         == [Turn(System, Text(env.systemPrompt + VisionClause))] + context
           + [u, Turn(User, Parts([TextPart(content), ImagePart(DataUriPrefix + imageBase64)]))]
  {
    var u := Turn(User, Text(content));
    var context := ChatContext(Some(ToTurns(history)));
    ImageCallOfSend(history, content, imageBase64, userId, now, server);
    VisionRequestOnShortWindow(context, u, imageBase64, env);
  }

  /** A send with a base64 image becomes a vision call on the filtered
      history and the user's turn twice, carrying the payload unchanged. */
  lemma ImageCallOfSend(
    history: seq<Message>, content: string, imageBase64: string,
    userId: int, now: int, server: Answer)
    requires content != "" && imageBase64 != ""
    ensures var sent := SendMessage(Some(history), content, None, Some(imageBase64), userId, now, server);
      var u := Turn(User, Text(content));
      ChatCall(sent.request.value)
        == VisionCall(ChatContext(Some(ToTurns(history))) + [u, u], None, Some(imageBase64))
  {
    UserTurnReachesGatewayTwice(history, content, None, Some(imageBase64), userId, now, server);
  }

  /** A window short enough to be sent whole gets the JPEG data URI of the
      payload merged into its last turn, the user's. */
  lemma VisionRequestOnShortWindow(context: seq<Turn>, u: Turn, imageBase64: string, env: Env)
    requires u.role == User && u.content.Text?
    requires |context| + 2 <= MaxUnsummarized && imageBase64 != "" && env.hasVisionSupport
    ensures GetChatResponseWithVision(context + [u, u], None, Some(imageBase64),
              env.hasVisionSupport, env.systemPrompt, env.complete).request.value.messages
      == [Turn(System, Text(env.systemPrompt + VisionClause))] + context
         + [u, Turn(User, Parts([TextPart(u.content.text), ImagePart(DataUriPrefix + imageBase64)]))]
  {
    // These steps name the window, the merged turn and the request's list
    // for the solver; without them the proof runs out of resource.
    var url := DataUriPrefix + imageBase64;
    var turns := context + [u, u];
    assert ImageRef(None, Some(imageBase64)) == url;
    assert SummarizeContext(turns) == turns;
    assert turns == (context + [u]) + [u];
    MergeImageOnLastTurn(context + [u], u, url);
    var merged := Turn(User, Parts([TextPart(u.content.text), ImagePart(url)]));
    assert MergeImage(turns, url) == context + [u, merged];
    var sys := Turn(System, Text(env.systemPrompt + VisionClause));
    assert [sys] + (context + [u, merged]) == [sys] + context + [u, merged];
  }

  /** When the last turn is the user's, the image is merged into it. */
  lemma MergeImageOnLastTurn(front: seq<Turn>, u: Turn, url: string)
    requires u.role == User
    ensures MergeImage(front + [u], url) == front + [WithImage(u, url)]
  {
    var ts := front + [u];
    assert ts[|front| := WithImage(u, url)] == front + [WithImage(u, url)];
  }

  /** Without a vision credential an image is acknowledged with the fixed
      text and the completion API is never called, yet the client still
      receives an ordinary assistant message. */
  lemma ImageWithoutVisionCredential(body: ChatBody, env: Env)
    requires HasImage(body.imageUrl, body.imageBase64) && !env.hasVisionSupport
    requires 0.0 <= env.random < 1.0
    ensures var out := HandleChat(Valid(body), env);
      var call := out.call.value;
      && GetChatResponseWithVision(call.messages, call.imageUrl, call.imageBase64,
           env.hasVisionSupport, env.systemPrompt, env.complete).request.None?
      && out.response == Reply(out.response.message)
      && out.response.message.content == VisionDisabledText
  {
  }

  /** A rejected credential on the text path reaches the client as the
      fixed "API issue" reply inside a normal assistant message, not as an
      error response. */
  lemma UnauthorizedBecomesReply(body: ChatBody, env: Env)
    requires !HasImage(body.imageUrl, body.imageBase64)
    requires forall req :: env.complete(req) == Failed(Some(401), None)
    requires 0.0 <= env.random < 1.0
    ensures var out := HandleChat(Valid(body), env);
      out.response.Reply? && out.response.message.content == ApiIssueText
  {
  }
}

=== FILE: routes.dfy ===
/** The HTTP handlers of `server/routes.ts`: `POST /api/chat`, which filters
    the client's history, appends the new user turn and dispatches to the
    text or the vision entry point of the gateway, and the three fixed
    endpoints. */
module Routes {
  import opened Common
  import opened Seqs
  import opened Text
  import opened ChatTypes
  import opened OpenAI

  const ValidationErrorText: string := "Mesaj formatı hatalı, tekrar dener misin?"
  const GenericErrorText: string := "Bi sıkıntı çıktı kanka, sonra tekrar dene."

  /** Reply ids are `Math.floor(Math.random() * 1000000)`. */
  const IdRange: nat := 1000000

  /** The request body after schema validation: the typed body, or the
      thrown validation error with its optional message. */
  datatype Parsed = Valid(body: ChatBody) | Invalid(message: Option<string>)

  /** What the server reads from its surroundings while handling a
      request: whether a vision credential is configured, the system prompt
      of the moment, the completion API, the value `Math.random()` returned
      and the current time in milliseconds. */
  datatype Env = Env(
    hasVisionSupport: bool,
    systemPrompt: string,
    complete: ChatRequest -> Completion,
    random: real,
    now: int)

  /** Which gateway entry point the handler called, with its arguments. */
  datatype Call =
    | TextCall(messages: seq<Turn>)
    | VisionCall(messages: seq<Turn>, imageUrl: Option<string>, imageBase64: Option<string>)

  /** The response of `POST /api/chat`: the assistant message as JSON, or
      status 500 with a message. */
  datatype ChatResponse = Reply(message: Message) | ServerError(status: nat, error: string)

  /** The gateway call made (none when validation failed) and the response. */
  datatype ChatOutcome = ChatOutcome(call: Option<Call>, response: ChatResponse)

  /** `m.content` is truthy: a non-empty string or any part list. */
  function HasContent(t: Turn): (b: bool)
    ensures t.content.Parts? ==> b
    ensures t.content.Text? ==> (b <==> |t.content.text| > 0)
  {
    t.content.Parts? || t.content.text != ""
  }

  /** `(history || []).filter(m => m.content).map(m => ({role, content}))`. */
  function ChatContext(history: Option<seq<Turn>>): (r: seq<Turn>)
    ensures history.None? ==> r == []
    ensures forall i :: 0 <= i < |r| ==> HasContent(r[i])
    ensures history.Some? ==> SubseqOf(r, history.value)
    ensures history.Some? ==>
      forall i :: 0 <= i < |history.value| && HasContent(history.value[i]) ==> history.value[i] in r
    ensures history.Some? ==>
      forall i :: 0 <= i < |history.value| ==>
        var t := history.value[i]; Count(r, t) == if HasContent(t) then Count(history.value, t) else 0
  {
    Filter(history.OrElse([]), HasContent)
  }

  /** A history in which every turn has content reaches the gateway whole. */
  lemma ChatContextKeepsFullHistory(history: seq<Turn>)
    requires forall i :: 0 <= i < |history| ==> HasContent(history[i])
    ensures ChatContext(Some(history)) == history
  {
    FilterKeepsAll(history, HasContent);
  }

  /** A turn with content appended to the history is appended to the
      context as well. */
  lemma ChatContextAppend(history: seq<Turn>, t: Turn)
    requires HasContent(t)
    ensures ChatContext(Some(history + [t])) == ChatContext(Some(history)) + [t]
  {
    FilterAppend(history, [t], HasContent);
    assert Filter([t], HasContent) == [t];
  }

  /** The reply id drawn from a `Math.random()` value in [0, 1). */
  function RandomId(random: real): (id: int)
    requires 0.0 <= random < 1.0
    ensures 0 <= id < IdRange
  {
    (random * IdRange as real).Floor
  }

  /** The text the called gateway entry point returns. */
  function RunCall(call: Call, env: Env): string {
    match call
    case TextCall(ms) => GetChatResponse(ms, env.systemPrompt, env.complete).reply
    case VisionCall(ms, url, b64) =>
      GetChatResponseWithVision(ms, url, b64, env.hasVisionSupport, env.systemPrompt, env.complete).reply
  }

  /** The 500 message for a thrown error: the format text when its message
      mentions `validation`, the generic text otherwise. */
  function ErrorText(message: Option<string>): (t: string)
    ensures t == ValidationErrorText <==> message.Some? && Contains(message.value, "validation")
    ensures t == GenericErrorText <==> !(message.Some? && Contains(message.value, "validation"))
  {
    assert ValidationErrorText != GenericErrorText;
    if message.Some? && Contains(message.value, "validation") then ValidationErrorText
    else GenericErrorText
  }

  /** The one gateway call a valid body makes: to the vision entry point
      exactly when an image is present, with the filtered history followed
      by one new `user` turn holding the body's text. */
  function ChatCall(body: ChatBody): (c: Call)
    ensures c.VisionCall? <==> HasImage(body.imageUrl, body.imageBase64)
    ensures c.messages == ChatContext(body.history) + [Turn(User, Text(body.content))]
    ensures c.VisionCall? ==> c.imageUrl == body.imageUrl && c.imageBase64 == body.imageBase64
  {
    var turns := ChatContext(body.history) + [Turn(User, Text(body.content))];
    if HasImage(body.imageUrl, body.imageBase64) then VisionCall(turns, body.imageUrl, body.imageBase64)
    else TextCall(turns)
  }

  /** `POST /api/chat`. A valid body makes exactly one gateway call, to
      the vision entry point exactly when an image is present, with the
      filtered history followed by one new `user` turn, and answers with an
      `assistant` message carrying the gateway's text. A body that fails
      validation makes no call and answers 500. The gateway never throws,
      so validation is the only way to the error response. */
  function HandleChat(parsed: Parsed, env: Env): (r: ChatOutcome)
    requires 0.0 <= env.random < 1.0
    ensures parsed.Invalid? ==>
      r.call.None? && r.response == ServerError(500, ErrorText(parsed.message))
    ensures parsed.Valid? ==>
      && r.call == Some(ChatCall(parsed.body))
      && r.response.Reply?
      && r.response.message.role == Assistant
      && r.response.message.content == RunCall(r.call.value, env)
      && 0 <= r.response.message.id < IdRange
      && r.response.message.timestamp == env.now
      && r.response.message.imageUrl.None? && r.response.message.imageBase64.None?
  {
    match parsed
    case Invalid(message) => ChatOutcome(None, ServerError(500, ErrorText(message)))
    case Valid(body) =>
      var call := ChatCall(body);
      var reply := Message(RandomId(env.random), Assistant, RunCall(call, env), env.now, None, None);
      ChatOutcome(Some(call), Reply(reply))
  }

  /** A validation error whose message mentions `validation` gets the
      format text, wherever the word appears. */
  lemma ValidationMessageDetected(before: string, after: string, env: Env)
    requires 0.0 <= env.random < 1.0
    ensures HandleChat(Invalid(Some(before + "validation" + after)), env).response
      == ServerError(500, ValidationErrorText)
  {
    ContainsInfix(before, "validation", after);
  }

  /** `GET /api/vision/available`: `{available}` echoes the credential flag. */
  function VisionAvailable(hasVisionSupport: bool): (available: bool)
    ensures available <==> hasVisionSupport
  {
    IsVisionAvailable(hasVisionSupport)
  }

  /** `GET /api/chat/history`: history lives on the client, so the server
      always answers with an empty list. */
  function History(): (r: seq<Message>)
    ensures r == []
  {
    []
  }

  /** `POST /api/chat/clear`: always status 204 with no body. */
  function Clear(): (status: nat)
    ensures status == 204
  {
    204
  }
}

=== FILE: seqs.dfy ===
/** Sequence operations that mirror the array methods the program uses:
    `Array.prototype.filter` and `Array.prototype.lastIndexOf`. */
module Seqs {

  /** `a` is obtained from `b` by deleting zero or more elements, so the
      elements of `a` appear in `b` in the same relative order. */
  predicate SubseqOf<T(==)>(a: seq<T>, b: seq<T>)
    decreases |b|
  {
    if a == [] then true
    else if b == [] then false
    else if a[0] == b[0] then SubseqOf(a[1..], b[1..])
    else SubseqOf(a, b[1..])
  }

  /** A suffix of a sequence is a subsequence of it. */
  lemma {:induction false} SuffixIsSubseq<T>(s: seq<T>, k: nat)
    requires k <= |s|
    ensures SubseqOf(s[k..], s)
    decreases |s|
  {
    if s[k..] != [] {
      if s[k..][0] == s[0] {
        SuffixIsSubseq(s[1..], k);
        assert s[1..][k..] == s[k..][1..];
      } else {
        SuffixIsSubseq(s[1..], k - 1);
        assert s[1..][k - 1..] == s[k..];
      }
    }
  }

  /** The first element followed by any suffix past it is a subsequence. */
  lemma HeadAndSuffixIsSubseq<T>(s: seq<T>, k: nat)
    requires 1 <= k <= |s|
    ensures SubseqOf([s[0]] + s[k..], s)
  {
    SuffixIsSubseq(s[1..], k - 1);
    assert s[1..][k - 1..] == s[k..];
    assert ([s[0]] + s[k..])[1..] == s[k..];
  }

  /** The number of times `x` occurs in `s`. */
  function Count<T(==)>(s: seq<T>, x: T): nat
    decreases |s|
  {
    if s == [] then 0 else (if s[0] == x then 1 else 0) + Count(s[1..], x)
  }

  /** A value that does not occur in `s` is counted zero times. */
  lemma {:induction false} CountAbsent<T>(s: seq<T>, x: T)
    ensures x !in s ==> Count(s, x) == 0
    decreases |s|
  {
    if s != [] && x !in s {
      assert x !in s[1..];
      CountAbsent(s[1..], x);
    }
  }

  /** `s.filter(keep)`: the elements satisfying `keep`, in their order. */
  function Filter<T(==)>(s: seq<T>, keep: T -> bool): (r: seq<T>)
    ensures |r| <= |s|
    ensures forall i :: 0 <= i < |r| ==> r[i] in s && keep(r[i])
    ensures forall i :: 0 <= i < |s| && keep(s[i]) ==> s[i] in r
    ensures SubseqOf(r, s)
    ensures forall i :: 0 <= i < |s| ==> Count(r, s[i]) == if keep(s[i]) then Count(s, s[i]) else 0
    decreases |s|
  {
    if s == [] then []
    else
      var rest := Filter(s[1..], keep);
      FilterCountStep(s, rest, keep);
      if keep(s[0]) then [s[0]] + rest else rest
  }

  /** One step of `Filter`'s count: if `rest` is drawn from `s[1..]` and
      holds each of its passing elements as often as `s[1..]` does, then
      keeping or dropping `s[0]` in front of it does the same for `s`. */
  lemma FilterCountStep<T>(s: seq<T>, rest: seq<T>, keep: T -> bool)
    requires s != []
    requires forall j :: 0 <= j < |rest| ==> rest[j] in s[1..]
    requires forall i :: 0 <= i < |s[1..]| ==>
      Count(rest, s[1..][i]) == if keep(s[1..][i]) then Count(s[1..], s[1..][i]) else 0
    ensures var r := if keep(s[0]) then [s[0]] + rest else rest;
      forall i :: 0 <= i < |s| ==> Count(r, s[i]) == if keep(s[i]) then Count(s, s[i]) else 0
  {
    var r := if keep(s[0]) then [s[0]] + rest else rest;
    forall i | 0 <= i < |s|
      ensures Count(r, s[i]) == if keep(s[i]) then Count(s, s[i]) else 0
    {
      var x := s[i];
      if keep(s[0]) {
        assert r[1..] == rest;
      }
      if x !in s[1..] {
        assert x !in rest;
        CountAbsent(rest, x);
        CountAbsent(s[1..], x);
      } else {
        var j :| 0 <= j < |s[1..]| && s[1..][j] == x;
      }
    }
  }

  /** Filtering a concatenation filters each part; together with the
      one-element case this pins `Filter` down completely. */
  lemma {:induction false} FilterAppend<T>(a: seq<T>, b: seq<T>, keep: T -> bool)
    ensures Filter(a + b, keep) == Filter(a, keep) + Filter(b, keep)
    decreases |a|
  {
    if a == [] {
      assert a + b == b;
    } else {
      assert (a + b)[0] == a[0];
      assert (a + b)[1..] == a[1..] + b;
      FilterAppend(a[1..], b, keep);
    }
  }

  /** A filter that keeps every element returns its input unchanged. */
  lemma {:induction false} FilterKeepsAll<T>(s: seq<T>, keep: T -> bool)
    requires forall i :: 0 <= i < |s| ==> keep(s[i])
    ensures Filter(s, keep) == s
    decreases |s|
  {
    if s != [] {
      assert keep(s[0]);
      FilterKeepsAll(s[1..], keep);
      assert [s[0]] + s[1..] == s;
    }
  }

  /** Filtering twice with the same test is filtering once. */
  lemma FilterIdempotent<T>(s: seq<T>, keep: T -> bool)
    ensures Filter(Filter(s, keep), keep) == Filter(s, keep)
  {
    var r := Filter(s, keep);
    forall i | 0 <= i < |r|
      ensures keep(r[i])
    {
      assert r[i] in r;
    }
    FilterKeepsAll(r, keep);
  }

  /** `s.lastIndexOf(x)`: the greatest index holding `x`, or -1. */
  function LastIndexOf<T(==)>(s: seq<T>, x: T): (r: int)
    ensures -1 <= r < |s|
    ensures r >= 0 ==> s[r] == x
    ensures forall j :: r < j < |s| ==> s[j] != x
    decreases |s|
  {
    if s == [] then -1
    else if s[|s| - 1] == x then |s| - 1
    else LastIndexOf(s[..|s| - 1], x)
  }
}

=== FILE: settings.dfy ===
/** The settings store of `client/src/hooks/use-settings.ts`. The stored
    JSON object is a `Patch`: the fields it holds, each optional; the
    object spread `{...base, ...patch}` is `Overlay`. */
module Settings {
  import opened Common

  datatype Theme = Dark | Oled | Light
  datatype Personality = Default | Professional | Casual | Creative | Technical

  datatype AppSettings = AppSettings(
    theme: Theme,
    aiPersonality: Personality,
    soundEnabled: bool,
    showTimestamps: bool,
    enterToSend: bool)

  /** Some of the fields of `AppSettings`. */
  datatype Patch = Patch(
    theme: Option<Theme>,
    aiPersonality: Option<Personality>,
    soundEnabled: Option<bool>,
    showTimestamps: Option<bool>,
    enterToSend: Option<bool>)

  /** The settings slot of local storage. */
  datatype StoredSettings = Missing | Unparseable | Saved(patch: Patch)

  const DefaultSettings: AppSettings := AppSettings(Oled, Default, false, true, true)
  const EmptyPatch: Patch := Patch(None, None, None, None, None)

  /** `{...base, ...patch}`: every field present in `patch` replaces the
      base value, every other field keeps it. */
  function Overlay(base: AppSettings, patch: Patch): (r: AppSettings)
    ensures r.theme == patch.theme.OrElse(base.theme)
    ensures r.aiPersonality == patch.aiPersonality.OrElse(base.aiPersonality)
    ensures r.soundEnabled == patch.soundEnabled.OrElse(base.soundEnabled)
    ensures r.showTimestamps == patch.showTimestamps.OrElse(base.showTimestamps)
    ensures r.enterToSend == patch.enterToSend.OrElse(base.enterToSend)
  {
    AppSettings(
      patch.theme.OrElse(base.theme),
      patch.aiPersonality.OrElse(base.aiPersonality),
      patch.soundEnabled.OrElse(base.soundEnabled),
      patch.showTimestamps.OrElse(base.showTimestamps),
      patch.enterToSend.OrElse(base.enterToSend))
  }

  /** The full object that `JSON.stringify(settings)` stores. */
  function ToPatch(s: AppSettings): (p: Patch)
    ensures p.theme.Some? && p.aiPersonality.Some? && p.soundEnabled.Some?
      && p.showTimestamps.Some? && p.enterToSend.Some?
    ensures forall base :: Overlay(base, p) == s
  {
    Patch(Some(s.theme), Some(s.aiPersonality), Some(s.soundEnabled), Some(s.showTimestamps), Some(s.enterToSend))
  }

  /** `{...p, ...q}` on two patches. */
  function Combine(p: Patch, q: Patch): Patch {
    Patch(
      if q.theme.Some? then q.theme else p.theme,
      if q.aiPersonality.Some? then q.aiPersonality else p.aiPersonality,
      if q.soundEnabled.Some? then q.soundEnabled else p.soundEnabled,
      if q.showTimestamps.Some? then q.showTimestamps else p.showTimestamps,
      if q.enterToSend.Some? then q.enterToSend else p.enterToSend)
  }

  /** The initial state of `useSettings`: the defaults when nothing is
      stored or the stored text does not parse, otherwise the stored fields
      over the defaults. */
  function LoadSettings(stored: StoredSettings): (r: AppSettings)
    ensures !stored.Saved? ==> r == DefaultSettings
    ensures stored.Saved? && stored.patch.theme.None? ==> r.theme == Oled
    ensures stored.Saved? && stored.patch.aiPersonality.None? ==> r.aiPersonality == Default
    ensures stored.Saved? && stored.patch.soundEnabled.None? ==> !r.soundEnabled
    ensures stored.Saved? && stored.patch.showTimestamps.None? ==> r.showTimestamps
    ensures stored.Saved? && stored.patch.enterToSend.None? ==> r.enterToSend
    ensures stored.Saved? && stored.patch.theme.Some? ==> r.theme == stored.patch.theme.value
    ensures stored.Saved? && stored.patch.aiPersonality.Some? ==>
      r.aiPersonality == stored.patch.aiPersonality.value
    ensures stored.Saved? && stored.patch.soundEnabled.Some? ==>
      r.soundEnabled == stored.patch.soundEnabled.value
    ensures stored.Saved? && stored.patch.showTimestamps.Some? ==>
      r.showTimestamps == stored.patch.showTimestamps.value
    ensures stored.Saved? && stored.patch.enterToSend.Some? ==>
      r.enterToSend == stored.patch.enterToSend.value
  {
    match stored
    case Saved(p) => Overlay(DefaultSettings, p)
    case _ => DefaultSettings
  }

  /** `updateSettings`: the new state and the value persisted, which is the
      full new state. */
  function UpdateSettings(current: AppSettings, updates: Patch): (r: (AppSettings, StoredSettings))
    ensures r.0 == Overlay(current, updates)
    ensures r.1 == Saved(ToPatch(r.0))
  {
    var next := Overlay(current, updates);
    (next, Saved(ToPatch(next)))
  }

  /** What is persisted reloads to exactly the state that was set. */
  lemma PersistedReloads(current: AppSettings, updates: Patch)
    ensures var (next, stored) := UpdateSettings(current, updates);
      LoadSettings(stored) == next
  {
  }

  /** An update with no fields changes nothing. */
  lemma EmptyUpdateIsIdentity(current: AppSettings)
    ensures UpdateSettings(current, EmptyPatch).0 == current
  {
  }

  /** Two updates in a row are one update with the later fields winning. */
  lemma UpdatesCompose(s: AppSettings, p: Patch, q: Patch)
    ensures Overlay(Overlay(s, p), q) == Overlay(s, Combine(p, q))
  {
  }

  /** Nothing stored and an unparseable value both give the defaults:
      OLED theme, default personality, sound off, timestamps on, Enter sends. */
  lemma DefaultsWhenNothingUsable()
    ensures LoadSettings(Missing) == AppSettings(Oled, Default, false, true, true)
    ensures LoadSettings(Unparseable) == LoadSettings(Missing)
    ensures LoadSettings(Saved(EmptyPatch)) == LoadSettings(Missing)
  {
  }
}

=== FILE: text.dfy ===
/** String operations that mirror the JavaScript string methods the program
    relies on: `join`, `split`, `includes`, `trim` and the decimal rendering
    of a non-negative integer inside a template literal. */
module Text {

  /** `parts.join(sep)`. */
  function Join(parts: seq<string>, sep: string): (r: string)
    ensures |parts| == 0 ==> r == ""
    ensures |parts| == 1 ==> r == parts[0]
    decreases |parts|
  {
    if |parts| == 0 then ""
    else if |parts| == 1 then parts[0]
    else parts[0] + sep + Join(parts[1..], sep)
  }

  /** Joining `parts + [x]` adds one separator and `x` after the join of
      `parts`, so a join can be built up one piece at a time. */
  lemma {:induction false} JoinSnoc(parts: seq<string>, x: string, sep: string)
    requires |parts| >= 1
    ensures Join(parts + [x], sep) == Join(parts, sep) + sep + x
    decreases |parts|
  {
    if |parts| == 1 {
      assert parts + [x] == [parts[0], x];
      assert (parts + [x])[1..] == [x];
    } else {
      assert (parts + [x])[0] == parts[0];
      assert (parts + [x])[1..] == parts[1..] + [x];
      JoinSnoc(parts[1..], x, sep);
    }
  }

  /** `s.split(sep)` for a one-character separator: the maximal pieces of
      `s` between separators, always at least one (possibly empty) piece. */
  function Split(s: string, sep: char): (r: seq<string>)
    ensures |r| >= 1
    ensures forall i :: 0 <= i < |r| ==> sep !in r[i]
    ensures |r| > 1 <==> sep in s
    decreases |s|
  {
    if s == [] then [""]
    else
      var rest := Split(s[1..], sep);
      if s[0] == sep then [""] + rest
      else [[s[0]] + rest[0]] + rest[1..]
  }

  /** Splitting and re-joining with the same separator gives back the
      original string. */
  lemma {:induction false} JoinSplit(s: string, sep: char)
    ensures Join(Split(s, sep), [sep]) == s
    decreases |s|
  {
    if s != [] {
      var rest := Split(s[1..], sep);
      JoinSplit(s[1..], sep);
      if s[0] == sep {
        assert Split(s, sep)[1..] == rest;
      } else {
        var r := Split(s, sep);
        if |rest| > 1 {
          assert r[1..] == rest[1..];
          assert Join(rest, [sep]) == rest[0] + [sep] + Join(rest[1..], [sep]);
        }
        assert s == [s[0]] + s[1..];
      }
    }
  }

  /** A string with no separator splits into itself alone. */
  lemma {:induction false} SplitNoSeparator(s: string, sep: char)
    requires sep !in s
    ensures Split(s, sep) == [s]
    decreases |s|
  {
    if s != [] {
      SplitNoSeparator(s[1..], sep);
      assert [s[0]] + s[1..] == s;
    }
  }

  /** `p + sep + q` with no separator in `p` or `q` splits into `[p, q]`. */
  lemma {:induction false} SplitOnce(p: string, q: string, sep: char)
    requires sep !in p && sep !in q
    ensures Split(p + [sep] + q, sep) == [p, q]
    decreases |p|
  {
    if p == [] {
      assert p + [sep] + q == [sep] + q;
      assert ([sep] + q)[1..] == q;
      SplitNoSeparator(q, sep);
    } else {
      var s := p + [sep] + q;
      assert s[0] == p[0];
      assert s[1..] == p[1..] + [sep] + q;
      SplitOnce(p[1..], q, sep);
      assert [p[0]] + p[1..] == p;
    }
  }

  /** `s.includes(t)`: `t` occurs in `s` as a contiguous substring. */
  predicate Contains(s: string, t: string) {
    exists i :: 0 <= i <= |s| && OccursAt(s, i, t)
  }

  /** `t` occurs in `s` starting at index `i`. */
  predicate OccursAt(s: string, i: nat, t: string) {
    i + |t| <= |s| && s[i..i + |t|] == t
  }

  /** A string contains every string that is glued into it. */
  lemma ContainsInfix(a: string, t: string, b: string)
    ensures Contains(a + t + b, t)
  {
    var s := a + t + b;
    assert OccursAt(s, |a|, t);
  }

  /** Each of the three strings spliced into a four-piece frame occurs in
      the result. */
  lemma ContainsSpliced(a: string, x: string, b: string, y: string, c: string, z: string, d: string)
    ensures var s := a + x + b + y + c + z + d;
      Contains(s, x) && Contains(s, y) && Contains(s, z)
  {
    var s := a + x + b + y + c + z + d;
    assert OccursAt(s, |a|, x) by {
      assert s[|a|..|a| + |x|] == x;
    }
    assert OccursAt(s, |a + x + b|, y) by {
      assert s[|a + x + b|..|a + x + b| + |y|] == y;
    }
    assert OccursAt(s, |a + x + b + y + c|, z) by {
      assert s[|a + x + b + y + c|..|a + x + b + y + c| + |z|] == z;
    }
  }

  /** The characters `String.prototype.trim` removes: the ECMAScript
      WhiteSpace and LineTerminator code points. */
  predicate IsJsWhitespace(c: char) {
    c == '\t' || c == '\n' || c == '\U{000B}' || c == '\U{000C}' || c == '\r'
    || c == ' ' || c == '\U{00A0}' || c == '\U{1680}'
    || ('\U{2000}' <= c <= '\U{200A}')
    || c == '\U{2028}' || c == '\U{2029}' || c == '\U{202F}' || c == '\U{205F}'
    || c == '\U{3000}' || c == '\U{FEFF}'
  }

  predicate AllWhitespace(s: string) {
    forall i :: 0 <= i < |s| ==> IsJsWhitespace(s[i])
  }

  /** `s` with its leading whitespace removed. */
  function TrimStart(s: string): (r: string)
    ensures |r| <= |s| && r == s[|s| - |r|..]
    ensures AllWhitespace(s[..|s| - |r|])
    ensures r == [] || !IsJsWhitespace(r[0])
    decreases |s|
  {
    if s != [] && IsJsWhitespace(s[0]) then TrimStart(s[1..]) else s
  }

  /** `s` with its trailing whitespace removed. */
  function TrimEnd(s: string): (r: string)
    ensures |r| <= |s| && r == s[..|r|]
    ensures AllWhitespace(s[|r|..])
    ensures r == [] || !IsJsWhitespace(r[|r| - 1])
    decreases |s|
  {
    if s != [] && IsJsWhitespace(s[|s| - 1]) then
      var r := TrimEnd(s[..|s| - 1]);
      assert s[|r|..] == s[..|s| - 1][|r|..] + [s[|s| - 1]];
      r
    else s
  }

  /** `r` is the infix of `s` starting at `i` that neither starts nor ends
      with whitespace, everything around it being whitespace. */
  predicate IsTrimOf(r: string, s: string, i: int) {
    && 0 <= i <= |s| - |r| && r == s[i..i + |r|]
    && AllWhitespace(s[..i]) && AllWhitespace(s[i + |r|..])
    && (r == [] || (!IsJsWhitespace(r[0]) && !IsJsWhitespace(r[|r| - 1])))
  }

  /** `s.trim()`: the infix of `s` left once the whitespace at both ends is
      cut off. */
  function Trim(s: string): (r: string)
    ensures exists i :: IsTrimOf(r, s, i)
  {
    var a := TrimStart(s);
    var r := TrimEnd(a);
    TrimWitness(s, a, r);
    r
  }

  /** The cut made by `Trim`: whitespace cut off the front of `s` leaves
      `a`, whitespace cut off the back of `a` leaves `r`, so `r` sits in `s`
      between two runs of whitespace. */
  lemma TrimWitness(s: string, a: string, r: string)
    requires |a| <= |s| && a == s[|s| - |a|..] && AllWhitespace(s[..|s| - |a|])
    requires a == [] || !IsJsWhitespace(a[0])
    requires |r| <= |a| && r == a[..|r|] && AllWhitespace(a[|r|..])
    requires r == [] || !IsJsWhitespace(r[|r| - 1])
    ensures IsTrimOf(r, s, |s| - |a|)
  {
    var i := |s| - |a|;
    assert s[i..i + |r|] == a[..|r|];
    assert s[i + |r|..] == a[|r|..];
    assert r != [] ==> r[0] == a[0];
  }

  /** Trimming yields the empty string exactly for all-whitespace input, the
      case in which the chat input counts as empty. */
  lemma TrimEmptyIff(s: string)
    ensures Trim(s) == "" <==> AllWhitespace(s)
  {
    var r := Trim(s);
    if r == "" {
      var i :| IsTrimOf(r, s, i);
      forall k | 0 <= k < |s|
        ensures IsJsWhitespace(s[k])
      {
        if k < i {
          assert s[k] == s[..i][k];
        } else {
          assert s[k] == s[i..][k - i];
        }
      }
    }
  }

  /** Trimming an already trimmed string changes nothing. */
  lemma TrimIdempotent(s: string)
    ensures Trim(Trim(s)) == Trim(s)
  {
    var r := Trim(s);
    assert TrimStart(r) == r;
    assert TrimEnd(r) == r;
  }

  /** The character of a decimal digit `d`. */
  function DigitChar(d: nat): (c: char)
    requires d < 10
    ensures '0' <= c <= '9'
  {
    ['0', '1', '2', '3', '4', '5', '6', '7', '8', '9'][d]
  }

  predicate IsDigit(c: char) {
    '0' <= c <= '9'
  }

  /** The value of a string of decimal digits, read most significant first. */
  function DigitsValue(s: string): nat
    requires forall i :: 0 <= i < |s| ==> IsDigit(s[i])
    decreases |s|
  {
    if s == [] then 0
    else
      var last := s[|s| - 1];
      assert IsDigit(last);
      DigitsValue(s[..|s| - 1]) * 10 + (last as int - '0' as int)
  }

  /** The decimal rendering of `n`, as `${n}` produces it: no sign and no
      leading zeros. */
  function NatToString(n: nat): (r: string)
    ensures |r| >= 1
    ensures forall i :: 0 <= i < |r| ==> IsDigit(r[i])
    ensures |r| > 1 ==> r[0] != '0'
    decreases n
  {
    if n < 10 then [DigitChar(n)] else NatToString(n / 10) + [DigitChar(n % 10)]
  }

  /** Reading back a rendered number gives the number: the rendering loses
      nothing, so distinct counts give distinct texts. */
  lemma {:induction false} DigitsValueOfNatToString(n: nat)
    ensures DigitsValue(NatToString(n)) == n
    decreases n
  {
    var r := NatToString(n);
    if n >= 10 {
      DigitsValueOfNatToString(n / 10);
      assert r[..|r| - 1] == NatToString(n / 10);
    }
  }
}

=== FILE: toasts.dfy ===
/** The toast list of `client/src/hooks/use-toast-notifications.ts`. A
    toast's id is the `Date.now()` of its creation, taken as a parameter;
    the auto-dismiss timer is returned as a value, and its firing is the
    same removal as `RemoveToast`. */
module Toasts {
  import opened Common
  import opened Seqs

  datatype ToastKind = Success | Error | Info

  datatype Toast = Toast(id: int, message: string, kind: ToastKind, duration: int)

  /** A scheduled removal of the toasts with `id` after `delay` ms. */
  datatype Timer = Timer(id: int, delay: int)

  const DefaultDuration: int := 3000

  /** `showToast(message, type = "info", duration = 3000)` at time `now`:
      the new toast goes after every existing one, and a removal is
      scheduled only for a positive duration. */
  function ShowToast(
    toasts: seq<Toast>, message: string, kind: Option<ToastKind>, duration: Option<int>, now: int)
    : (r: (seq<Toast>, Option<Timer>))
    ensures |r.0| == |toasts| + 1 && r.0[..|toasts|] == toasts
    ensures var t := r.0[|toasts|];
      && t.id == now && t.message == message
      && t.kind == (if kind.Some? then kind.value else Info)
      && t.duration == (if duration.Some? then duration.value else DefaultDuration)
    ensures r.1.Some? <==> r.0[|toasts|].duration > 0
    ensures r.1.Some? ==> r.1.value == Timer(now, r.0[|toasts|].duration)
  {
    var d := duration.OrElse(DefaultDuration);
    var toast := Toast(now, message, kind.OrElse(Info), d);
    (toasts + [toast], if d > 0 then Some(Timer(now, d)) else None)
  }

  /** `removeToast(id)`: every toast with `id` goes, the rest stay in order. */
  function RemoveToast(toasts: seq<Toast>, id: int): (r: seq<Toast>)
    ensures forall i :: 0 <= i < |r| ==> r[i].id != id
    ensures SubseqOf(r, toasts)
    ensures forall i :: 0 <= i < |toasts| && toasts[i].id != id ==> toasts[i] in r
    ensures forall i :: 0 <= i < |toasts| ==>
      Count(r, toasts[i]) == if toasts[i].id != id then Count(toasts, toasts[i]) else 0
  {
    Filter(toasts, (t: Toast) => t.id != id)
  }

  /** When a toast's timer fires, the toast is gone and the toasts that
      were there before it with other ids are untouched. */
  lemma TimerRemovesItsToast(toasts: seq<Toast>, message: string, kind: Option<ToastKind>, now: int)
    requires forall i :: 0 <= i < |toasts| ==> toasts[i].id != now
    ensures var (after, timer) := ShowToast(toasts, message, kind, None, now);
      timer.Some? && RemoveToast(after, timer.value.id) == toasts
  {
    var (after, timer) := ShowToast(toasts, message, kind, None, now);
    assert after == toasts + [after[|toasts|]];
    FilterAppend(toasts, [after[|toasts|]], (t: Toast) => t.id != now);
    FilterKeepsAll(toasts, (t: Toast) => t.id != now);
  }

  /** Two toasts shown in the same millisecond share an id, so removing
      one removes both. */
  lemma SameMillisecondRemovedTogether(toasts: seq<Toast>, m1: string, m2: string, now: int)
    ensures var (once, _) := ShowToast(toasts, m1, None, None, now);
      var (twice, _) := ShowToast(once, m2, None, None, now);
      RemoveToast(twice, now) == RemoveToast(toasts, now)
  {
    var (once, _) := ShowToast(toasts, m1, None, None, now);
    var (twice, _) := ShowToast(once, m2, None, None, now);
    var keep := (t: Toast) => t.id != now;
    assert twice == toasts + [once[|toasts|], twice[|once|]];
    FilterAppend(toasts, [once[|toasts|], twice[|once|]], keep);
    assert Filter([once[|toasts|], twice[|once|]], keep) == [];
  }
}

=== FILE: use_chat.dfy ===
/** The client's conversation store of `client/src/hooks/use-chat.ts`.
    The browser's local storage slot for the history is a `Stored` value.
    Sending and regenerating report the request they send to
    `POST /api/chat`, the values they write to the slot, in order, and what
    they resolve or reject with; the server's answer to that request is an
    `Answer` parameter. Deleting returns the list it writes, and clearing
    the slot it leaves. */
module UseChat {
  import opened Common
  import opened Seqs
  import opened Text
  import opened ChatTypes

  /** The local storage slot: nothing stored (or the empty string), a value
      that does not parse, or a parsed message list. */
  datatype Stored = Missing | Unparseable | Saved(messages: seq<Message>)

  /** The clock as the welcome message reads it. The source reads it twice:
      `millis` is the `new Date()` that gives the timestamp and the rendered
      day name, date and time (Turkish locale), and `idMillis` is the later
      `Date.now()` that gives the id; the two may differ. */
  datatype Clock = Clock(millis: int, idMillis: int, weekday: string, date: string, time: string)

  /** How the request of a send or a regenerate ends: the parsed reply, a
      response that is not ok (the mutation then throws its own text), or an
      error thrown before a reply is read (a rejected `fetch`, or a body
      `res.json()` cannot parse), which the mutation rejects with as it is. */
  datatype Answer = Replied(message: Message) | NotOk | Thrown(error: string)

  /** The result of loading the history: the list shown, and the slot
      afterwards. */
  datatype Loaded = Loaded(history: seq<Message>, stored: Stored)

  /** What a mutation did: the request it sent, the lists it wrote to the
      slot in order, and the message it resolved with or the error text it
      rejected with. */
  datatype Mutation = Mutation(
    request: Option<ChatBody>,
    writes: seq<seq<Message>>,
    result: Result<Message>)

  const SendFailedText: string := "Mesaj gitmedi be, tekrar dene."
  const NothingToRegenerateText: string := "Yeniden oluşturulacak mesaj yok."
  const RegenerateFailedText: string := "Yeniden oluşturulamadı."

  const WelcomeHead: string := "Selam! 👋 Ben Muhabbet AI, Ahmet'in en yeni projesi. Seninle her türlü derin mevzuyu konuşmaya hazırım.\n\n📅 Bugün "
  const WelcomeTail: string := ".\n\nBenimle ne konuşmak istersin? Felsefe, teknoloji, sanat, günlük hayat... Her şey olabilir. Hatta görseller de yükleyebilirsin, analiz edeyim."

  const ExportSeparator: string := "\n\n"

  function WelcomeText(clock: Clock): string {
    WelcomeHead + clock.weekday + ", " + clock.date + " ve saat " + clock.time + WelcomeTail
  }

  /** The greeting that opens a new conversation. */
  function WelcomeMessage(clock: Clock): (m: Message)
    ensures m.id == clock.idMillis && m.timestamp == clock.millis
    ensures m.role == Assistant && m.imageUrl.None? && m.imageBase64.None?
    ensures Contains(m.content, clock.weekday) && Contains(m.content, clock.date)
      && Contains(m.content, clock.time)
  {
    ContainsSpliced(WelcomeHead, clock.weekday, ", ", clock.date, " ve saat ", clock.time, WelcomeTail);
    Message(clock.idMillis, Assistant, WelcomeText(clock), clock.millis, None, None)
  }

  /** The slot after a sequence of writes. */
  function After(stored: Stored, writes: seq<seq<Message>>): (s: Stored)
    ensures writes == [] ==> s == stored
    ensures writes != [] ==> s == Saved(writes[|writes| - 1])
  {
    if writes == [] then stored else Saved(writes[|writes| - 1])
  }

  // ---------------------------------------------------------------------
  // Loading and clearing
  // ---------------------------------------------------------------------

  /** `useChatHistory`: an empty slot yields, and stores, the single welcome
      message; an unparseable slot yields the empty list; otherwise the
      stored list is shown as it is. */
  function LoadHistory(stored: Stored, clock: Clock): (r: Loaded)
    ensures stored.Missing? ==>
      && r.history == [WelcomeMessage(clock)]
      && r.history[0].role == Assistant
      && r.stored == Saved(r.history)
    ensures stored.Unparseable? ==> r.history == [] && r.stored == stored
    ensures stored.Saved? ==> r.history == stored.messages && r.stored == stored
  {
    match stored
    case Missing =>
      var initial := [WelcomeMessage(clock)];
      Loaded(initial, Saved(initial))
    case Unparseable => Loaded([], stored)
    case Saved(ms) => Loaded(ms, stored)
  }

  /** Loading is stable: loading again from the slot a load left behind
      shows the same list. */
  lemma LoadTwice(stored: Stored, clock: Clock, later: Clock)
    ensures var first := LoadHistory(stored, clock);
      LoadHistory(first.stored, later) == first
  {
  }

  /** `useClearChat` removes the slot. */
  function ClearChat(stored: Stored): (r: Stored)
    ensures r.Missing?
  {
    Missing
  }

  /** After clearing, the refetched history is the welcome message alone. */
  lemma ClearThenLoad(stored: Stored, clock: Clock)
    ensures LoadHistory(ClearChat(stored), clock).history == [WelcomeMessage(clock)]
  {
  }

  // ---------------------------------------------------------------------
  // Sending
  // ---------------------------------------------------------------------

  /** `useSendMessage`. The user message is appended to the cached history
      and stored before the request; the request's history is that updated
      list reduced to role and content. On success the reply is stored after
      it. A response that is not ok rejects with the send-failed text, and a
      thrown error rejects with that error; either way the user message
      stays stored without a reply. */
  function SendMessage(
    cache: Option<seq<Message>>, content: string, imageUrl: Option<string>, imageBase64: Option<string>,
    userId: int, now: int, server: Answer): (r: Mutation)
    ensures var history := cache.OrElse([]);
      var user := Message(userId, User, content, now, imageUrl, imageBase64);
      && |r.writes| >= 1
      && r.writes[0] == history + [user]
      && r.request == Some(ChatBody(content, Some(ToTurns(history + [user])), imageUrl, imageBase64))
      && (server.Replied? ==>
            r.writes == [history + [user], history + [user, server.message]]
            && r.result == Ok(server.message))
      && (server.NotOk? ==> r.writes == [history + [user]] && r.result == Err(SendFailedText))
      && (server.Thrown? ==> r.writes == [history + [user]] && r.result == Err(server.error))
  {
    var history := cache.OrElse([]);
    var user := Message(userId, User, content, now, imageUrl, imageBase64);
    var updated := history + [user];
    var request := ChatBody(content, Some(ToTurns(updated)), imageUrl, imageBase64);
    match server
    case NotOk => Mutation(Some(request), [updated], Err(SendFailedText))
    case Thrown(error) => Mutation(Some(request), [updated], Err(error))
    case Replied(ai) =>
      assert updated + [ai] == history + [user, ai];
      Mutation(Some(request), [updated, updated + [ai]], Ok(ai))
  }

  /** A send grows the stored list at the end only: every earlier message
      keeps its place and value, and exactly one (failure) or two (success)
      messages follow. */
  lemma SendKeepsPrior(
    history: seq<Message>, content: string, imageUrl: Option<string>, imageBase64: Option<string>,
    userId: int, now: int, server: Answer, before: Stored)
    ensures var m := SendMessage(Some(history), content, imageUrl, imageBase64, userId, now, server);
      var s := After(before, m.writes);
      && s.Saved?
      && |s.messages| == |history| + (if server.Replied? then 2 else 1)
      && s.messages[..|history|] == history
      && s.messages[|history|].role == User
      && s.messages[|history|].content == content
  {
    var m := SendMessage(Some(history), content, imageUrl, imageBase64, userId, now, server);
    var s := After(before, m.writes);
    assert s.messages[..|history|] == history;
  }

  // ---------------------------------------------------------------------
  // Deleting
  // ---------------------------------------------------------------------

  /** `useDeleteMessage`: the history without every message carrying `id`,
      the others kept in order; the result is also what is written. */
  function DeleteMessage(cache: Option<seq<Message>>, id: int): (r: seq<Message>)
    ensures forall i :: 0 <= i < |r| ==> r[i].id != id
    ensures var history := cache.OrElse([]);
      && SubseqOf(r, history)
      && (forall i :: 0 <= i < |history| && history[i].id != id ==> history[i] in r)
      && forall i :: 0 <= i < |history| ==>
           Count(r, history[i]) == if history[i].id != id then Count(history, history[i]) else 0
  {
    Filter(cache.OrElse([]), (m: Message) => m.id != id)
  }

  /** Deleting an id that no message carries changes nothing. */
  lemma DeleteAbsentId(history: seq<Message>, id: int)
    requires forall i :: 0 <= i < |history| ==> history[i].id != id
    ensures DeleteMessage(Some(history), id) == history
  {
    FilterKeepsAll(history, (m: Message) => m.id != id);
  }

  /** Deleting the same id twice is deleting it once. */
  lemma DeleteIdempotent(history: seq<Message>, id: int)
    ensures DeleteMessage(Some(DeleteMessage(Some(history), id)), id) == DeleteMessage(Some(history), id)
  {
    FilterIdempotent(history, (m: Message) => m.id != id);
  }

  /** Deleting works piecewise: deleting from `a + b` deletes from each. */
  lemma DeleteAppend(a: seq<Message>, b: seq<Message>, id: int)
    ensures DeleteMessage(Some(a + b), id) == DeleteMessage(Some(a), id) + DeleteMessage(Some(b), id)
  {
    FilterAppend(a, b, (m: Message) => m.id != id);
  }

  // ---------------------------------------------------------------------
  // Regenerating
  // ---------------------------------------------------------------------

  /** The index of the last `user` message, or -1 when there is none. */
  function LastUserIndex(history: seq<Message>): (k: int)
    ensures -1 <= k < |history|
    ensures k >= 0 ==> history[k].role == User
    ensures forall j :: k < j < |history| ==> history[j].role != User
  {
    LastIndexOf(Roles(ToTurns(history)), User)
  }

  /** The backwards search of `useRegenerateResponse`, loop for loop; it
      finds the same index as `LastUserIndex`. */
  method FindLastUserIndex(history: seq<Message>) returns (k: int)
    ensures -1 <= k < |history|
    ensures k >= 0 ==> history[k].role == User
    ensures forall j :: k < j < |history| ==> history[j].role != User
    ensures k == LastUserIndex(history)
  {
    k := -1;
    var i := |history| - 1;
    while i >= 0
      invariant -1 <= i < |history|
      invariant forall j :: i < j < |history| ==> history[j].role != User
      decreases i + 1
    {
      if history[i].role == User {
        k := i;
        break;
      }
      i := i - 1;
    }
    LastIndexUnique(history, k);
  }

  /** Two indices that are both "the last user message" coincide. */
  lemma LastIndexUnique(history: seq<Message>, k: int)
    requires -1 <= k < |history|
    requires k >= 0 ==> history[k].role == User
    requires forall j :: k < j < |history| ==> history[j].role != User
    ensures k == LastUserIndex(history)
  {
  }

  /** `useRegenerateResponse`. Without a `user` message it rejects and
      writes nothing. Otherwise it resends the last user message's content
      and image with the history up to and including it, and on success
      stores that prefix followed by the new reply, dropping everything that
      came after the last user message. */
  function Regenerate(cache: Option<seq<Message>>, server: Answer): (r: Mutation)
    ensures var history := cache.OrElse([]);
      (forall j :: 0 <= j < |history| ==> history[j].role != User) ==>
        r == Mutation(None, [], Err(NothingToRegenerateText))
    ensures var history := cache.OrElse([]);
      var k := LastUserIndex(history);
      k >= 0 ==>
        && r.request == Some(ChatBody(history[k].content, Some(ToTurns(history[..k + 1])),
                                       history[k].imageUrl, history[k].imageBase64))
        && (server.NotOk? ==> r.writes == [] && r.result == Err(RegenerateFailedText))
        && (server.Thrown? ==> r.writes == [] && r.result == Err(server.error))
        && (server.Replied? ==> r.writes == [history[..k + 1] + [server.message]] && r.result == Ok(server.message))
  {
    var history := cache.OrElse([]);
    var k := LastUserIndex(history);
    if k == -1 then Mutation(None, [], Err(NothingToRegenerateText))
    else
      var last := history[k];
      var upToUser := history[..k + 1];
      var request := ChatBody(last.content, Some(ToTurns(upToUser)), last.imageUrl, last.imageBase64);
      match server
      case NotOk => Mutation(Some(request), [], Err(RegenerateFailedText))
      case Thrown(error) => Mutation(Some(request), [], Err(error))
      case Replied(ai) => Mutation(Some(request), [upToUser + [ai]], Ok(ai))
  }

  /** Regenerating right after a successful send resends the same message:
      same content, same image, same history, and replaces the reply. */
  lemma RegenerateAfterSend(
    history: seq<Message>, content: string, imageUrl: Option<string>, imageBase64: Option<string>,
    userId: int, now: int, first: Message, second: Message)
    requires first.role != User
    ensures var sent := SendMessage(Some(history), content, imageUrl, imageBase64, userId, now, Replied(first));
      var stored := sent.writes[|sent.writes| - 1];
      var regen := Regenerate(Some(stored), Replied(second));
      && regen.request == sent.request
      && regen.writes == [history + [Message(userId, User, content, now, imageUrl, imageBase64), second]]
  {
    var user := Message(userId, User, content, now, imageUrl, imageBase64);
    var sent := SendMessage(Some(history), content, imageUrl, imageBase64, userId, now, Replied(first));
    var stored := history + [user, first];
    assert sent.writes[|sent.writes| - 1] == stored;
    assert stored[|history|] == user;
    assert stored[|history| + 1] == first;
    LastIndexUnique(stored, |history|);
    assert stored[..|history| + 1] == history + [user];
    var regen := Regenerate(Some(stored), Replied(second));
    assert regen.writes == [history + [user] + [second]];
    assert history + [user] + [second] == history + [user, second];
  }

  // ---------------------------------------------------------------------
  // Exporting
  // ---------------------------------------------------------------------

  /** `SEN` for the user, `AI` for every other role. */
  function RoleLabel(role: Role): (l: string)
    ensures l == "SEN" <==> role == User
    ensures role != User ==> l == "AI"
  {
    if role == User then "SEN" else "AI"
  }

  /** One exported line: `[time] ROLE: content`. */
  function ExportLine(m: Message, timeText: int -> string): (line: string)
    ensures var stamp := "[" + timeText(m.timestamp) + "] ";
      |line| >= |stamp| + |m.content| && line[..|stamp|] == stamp
    ensures line[|line| - |m.content|..] == m.content
    ensures Contains(line, RoleLabel(m.role) + ": ")
    ensures var stamp := "[" + timeText(m.timestamp) + "] ";
      line[|stamp|..|line| - |m.content|] == RoleLabel(m.role) + ": "
  {
    var stamp := "[" + timeText(m.timestamp) + "] ";
    ContainsInfix(stamp, RoleLabel(m.role) + ": ", m.content);
    assert stamp + (RoleLabel(m.role) + ": ") + m.content
      == "[" + timeText(m.timestamp) + "] " + RoleLabel(m.role) + ": " + m.content;
    "[" + timeText(m.timestamp) + "] " + RoleLabel(m.role) + ": " + m.content
  }

  function ExportLines(history: seq<Message>, timeText: int -> string): (lines: seq<string>)
    ensures |lines| == |history|
    ensures forall i :: 0 <= i < |history| ==> lines[i] == ExportLine(history[i], timeText)
  {
    seq(|history|, i requires 0 <= i < |history| => ExportLine(history[i], timeText))
  }

  /** The TXT export of `useExportChat`: nothing for an empty or
      unparseable slot, otherwise one line per message joined by a blank
      line. `timeText` is the locale rendering of a timestamp. */
  function ExportText(stored: Stored, timeText: int -> string): (r: Option<string>)
    ensures !stored.Saved? ==> r.None?
    ensures stored.Saved? && stored.messages == [] ==> r == Some("")
    ensures stored.Saved? && |stored.messages| == 1 ==>
      r == Some(ExportLine(stored.messages[0], timeText))
  {
    match stored
    case Saved(ms) => Some(Join(ExportLines(ms, timeText), ExportSeparator))
    case _ => None
  }

  /** Exporting a longer conversation extends the earlier export by one
      blank line and the new message's line. */
  lemma ExportAppend(history: seq<Message>, m: Message, timeText: int -> string)
    requires history != []
    ensures ExportText(Saved(history + [m]), timeText).value
      == ExportText(Saved(history), timeText).value + ExportSeparator + ExportLine(m, timeText)
  {
    assert ExportLines(history + [m], timeText) == ExportLines(history, timeText) + [ExportLine(m, timeText)];
    JoinSnoc(ExportLines(history, timeText), ExportLine(m, timeText), ExportSeparator);
  }
}
